=== FILE: README.md ===
# jiffy composition engine in Dafny

jiffy (`src/jiffy.js`) is a small UI composition library. A tree of
`composable` nodes is walked by `compose`. The walk hands every node a
position from a global counter. It fingerprints each node for a
per-position cache. It runs component functions together with their
`useState` and `useEffect` hooks. It asks a backend composer to build the
output for every intrinsic tag. `render` wraps one pass of this walk
around a per-target record, and fires the registered effects afterwards.
`renderString` is that pass with `composeString` as the composer and a
sink that joins the results with newlines. `composeString` ignores the
composed children it is handed. It calls `compose` again on the same
node, with the tag builder as composer (src/jiffy.js:147-157). So in a
`renderString` pass every tag is composed twice: first with
`composeString`, then again from where its children left the counter.

This project models that sequential core as pure Dafny functions over a
JavaScript-like `Value` datatype, and proves the following:

- how positions are allocated, and that the subject of a pass takes
  position 0;
- which subjects pass through unchanged and which ones are rejected;
- when the cache short-circuits;
- where the fingerprint and the result are stored, and which record
  entries a walk may touch at all;
- the dispatch on the node's target;
- the form of the string backend's tags, and that event props never
  appear in them;
- slot initialisation, reset and cloning in `useState`, that a truthy
  state value survives every walk and every pass, and what the `useState`
  setter does;
- that `useEffect` registers only the first call at a position, so that
  across any number of passes over a target no position's effect fires
  twice;
- that a tag is composed twice in a `renderString` pass, so a component
  below a tag runs at two positions, and its effect fires at both in the
  first pass.

The modules follow the source:

- `Values` holds the values, truthiness, property reads, the spread
  `{...o, [k]: v}`, `String(v)` and `cloneDeep`.
- `Hashing` holds `JSON.stringify` as a tree, and the fingerprint
  `${pos}:${md5(...)}`. The fingerprint is taken to be collision-free.
- `Nodes` holds `composable`, the subject guards, the target kinds and the
  props a component receives.
- `Records` holds the per-target record, the pass globals and the frame
  predicate used to say which positions changed.
- `Hooks` holds `useState`, `useEffect` and the setter.
- `Composition` holds `compose`, including the second composition of a
  tag under `composeString`.
- `CompositionLaws`, `CompositionEffects` and `CompositionState` hold the
  laws of `compose`.
- `StringBackend` holds the tag builder inside `composeString`, the
  event-handler map and the sink of `renderString`.
- `Render` holds one pass of `render` and `renderString`, and worked
  passes of `renderString`.

Every `await` is read as an immediate return. The elements of an array
are composed left to right, depth first. A component function is
identified by an id. A fixed table maps each id to a script: the hook
calls the function makes, in order, and the tree it returns given its
props and the values its `useState` calls returned. The backend composer,
the script table and what each effect function returns are parameters.

The comment at src/jiffy.js:92 says the cache is there to return, when
nothing has changed, the same thing as before. The code does not always
do that, and the model follows the code:

- The cache is checked before the children are composed
  (src/jiffy.js:93-104).
- A node's fingerprint is stored at its own position (src/jiffy.js:101),
  but its result is stored at the counter's value after its whole subtree
  (src/jiffy.js:122). The cache check of a node reads its own position.
  - A node whose children allocate positions leaves the result cached at
    its own position as it was (`CompositionLaws.MissLeavesOwnEntry`). If
    nothing truthy was cached there, a later pass over the same tree finds
    no result and composes it again. If an earlier pass over some other
    tree left a truthy result there, the next pass over the same tree
    finds its own fingerprint next to that stale result and serves it
    (`Render.StaleResultServed`).
  - The ancestor's result lands at the position of its last descendant.
    A raw string or number writes no fingerprint (src/jiffy.js:84-86), so
    when the last descendant is raw that position holds only the
    ancestor's result. When it is a node, the position also holds the
    descendant's own fingerprint. If that node is a childless tag, a later
    pass that reaches the same tag at the same position gets a cache hit
    that returns the ancestor's result
    (`CompositionLaws.ParentResultCachedAtLastLeaf` with
    `CompositionLaws.CacheHitShortCircuits`). This holds for a composer
    that does not re-enter `compose`.
- Under `renderString`, a tag that misses the cache is composed a second
  time (src/jiffy.js:111, 147-148). The second composition enters the tag
  again at the next free position and writes its fingerprint there too.
  The result is cached only once, after the second composition. For
  `<div>hello</div>` the fingerprints are at 0 and 2 and the result at 3
  (`Render.HelloPass`). The next pass checks 0 and 2, finds nothing cached
  there, and composes the tag again (`Render.TextTagSecondPassComposesAgain`).
  A component below a tag also runs twice per pass, at two positions, and
  its `useEffect` registers at both. On a new target both registrations
  fire in the first pass (`Render.EffectFiresTwiceUnderTag`). This does
  not contradict `Render.RenderFiresOnce`, which counts per position.
- A component's hooks are keyed by the counter's value after the node's
  declared children were composed (src/jiffy.js:104, 115). That value is
  not necessarily the component node's own position. It is when the
  children allocate nothing, as for `composable(Comp, props)`
  (`CompositionLaws.ComponentHooksFromSlotOne`).
- Both hook indices are reset to 0 only when a subject is entered
  (src/jiffy.js:69-71), and an array enters nothing of its own. A
  component runs its hooks with the indices its children's walk left.
  For a childless component these are freshly reset, so its slots start
  at 1. But when its last child is a component `D` without children
  that misses the cache and whose output allocates nothing (an empty
  array, say), the outer component's hooks run at `D`'s position with
  the indices `D`'s hooks left, so its slots continue after `D`'s
  instead of starting at 1.

## Model

| member | source | states |
|---|---|---|
| Values.Put | src/jiffy.js:44-47 | after `{...o, [k]: v}` the key `k` reads `v` and every other key reads what it read before; an existing key keeps its place in the key order, a new key is appended at the end |
| Values.NatToStringInjective | src/jiffy.js:44 | distinct array indices have distinct decimal keys, so the entries of an array have distinct keys |
| Values.CloneDeep | src/jiffy.js:34-52 | the clone has the truthiness of the original and contains no array; it is an object exactly when the original is an object or an array, and then it has the original's entry keys in order; anything not of type "object" comes back unchanged |
| Values.CloneDeepMember | src/jiffy.js:43-47 | reading a key of a cloned object gives the clone of what the key reads in the original, including `undefined` for a missing key |
| Values.CloneDeepArrayIndex | src/jiffy.js:43-47 | the clone of an array is an object whose key "i" holds the clone of element i |
| Values.CloneDeepCopies | src/jiffy.js:34-52 | on a value without arrays the clone equals the original |
| Values.CloneDeepIdempotent | src/jiffy.js:34-52 | cloning a clone gives the same clone |
| Hashing.Serialise | src/jiffy.js:90 | JSON has no text for `undefined` or a function; an array keeps its length, and an object keeps at most its fields |
| Hashing.SerialiseInjective | src/jiffy.js:90 | two values without `undefined` or functions that have the same JSON are equal |
| Hashing.HashOf | src/jiffy.js:90 | the fingerprint carries the position it was computed for |
| Hashing.HashOfSeparates | src/jiffy.js:90 | two lossless subjects share a fingerprint only at the same position, and only if they are equal |
| Nodes.Composable | src/jiffy.js:60-62 | the node is a node (`__c` is truthy); its keys are target, props, children, `__c` in that order; it reads back the target, the props (`{}` for `null` or a missing props argument) and the children array |
| Nodes.SubjectKinds | src/jiffy.js:73-86 | a non-array subject passes the guard exactly when it is a truthy string or number, or a node |
| Nodes.TargetOf | src/jiffy.js:107-120 | a string target is intrinsic with that name, a function target is a component with that function, and anything else is unsupported |
| Nodes.ComponentProps | src/jiffy.js:115 | a component receives a plain object whose `children` is the node's own children |
| Nodes.ComponentPropsClones | src/jiffy.js:115 | every prop other than `children` that a component receives reads as in the node's cloned props |
| Nodes.ComponentPropsOfComposable | src/jiffy.js:115 | for a node built by `composable`, every prop other than `children` reaches the component as the clone of the prop, and `children` is the children array |
| Nodes.ComponentFunctionInvisibleToHash | src/jiffy.js:90 | two component nodes that differ only in their function share their fingerprint at every position |
| Records.GetOrCreate | src/jiffy.js:170-180 | afterwards the target has a record; an existing record is kept, a missing one is created empty, and other targets are untouched |
| Records.GetOrCreateIdempotent | src/jiffy.js:170-180 | preparing a target twice gives the same store as preparing it once |
| Records.SetSlot | src/jiffy.js:260 | writing slot i of a JavaScript array stores the value at i, keeps every other element, and fills any gap before i with holes |
| Hooks.UseState | src/jiffy.js:267-283 | the slot index is bumped before use, so the first slot is 1; a falsy stored value is replaced by the default (`null` if none is given) and a truthy one is kept; the caller receives a deep clone of what is stored; no other slot changes |
| Hooks.UseStateFrame | src/jiffy.js:270-280 | `useState` changes the record only at the current position |
| Hooks.UseStateKeepsTruthySlot | src/jiffy.js:270-280 | a `useState` call never overwrites a truthy value, at its own slot or any other |
| Hooks.FalsyStateResets | src/jiffy.js:278-280 | when the stored value is falsy (`0`, `""`, `false`, `null`, missing) the call returns a clone of its own default |
| Hooks.SetState | src/jiffy.js:283-296 | an object, array or `null` value throws a ReferenceError naming `globalState`; any other value replaces exactly that slot of that target and requests a re-render of it, and nothing else changes; a target or position without state throws a TypeError |
| Hooks.SetThenUseState | src/jiffy.js:278-291 | after the setter stores a value, the next `useState` at that slot returns it when it is truthy, and its own default when it is falsy |
| Hooks.UseEffect | src/jiffy.js:252-265 | the effect slot index is bumped first; the position is flagged; the function is stored in its slot only if the position was not flagged before, and `null` is stored otherwise; the unmount list is kept |
| Hooks.UseEffectFrame | src/jiffy.js:252-265 | `useEffect` changes the record only at the current position |
| Hooks.UseEffectKeepsEffectOnce | src/jiffy.js:258-264 | `useEffect` keeps the invariant that each position holds at most one live callback, only if the position was first flagged in this pass |
| Hooks.RunHooks | src/jiffy.js:115 | a component's hooks leave the counter and the composer calls alone, and return one value per `useState` call |
| Hooks.RunHooksKeepsTruthySlot | src/jiffy.js:252-297 | any sequence of hook calls keeps every truthy state slot |
| Hooks.RunHooksKeepsOutputs | src/jiffy.js:252-297 | hooks never write a fingerprint or a cached result |
| Hooks.RunHooksFrame | src/jiffy.js:252-297 | a component's hooks change its record only at the counter's current position |
| Hooks.RunHooksKeepsEffectOnce | src/jiffy.js:252-297 | any sequence of hook calls keeps the effect-once invariant |
| Composition.Enter | src/jiffy.js:69-71 | entering a subject allocates the next position and resets both hook indices to 0 |
| Composition.Compose | src/jiffy.js:64-86 | a non-array subject allocates at least one position and an array at least none; composer calls are only ever appended |
| Composition.ComposeNode | src/jiffy.js:88-124 | the counter never goes back and composer calls are only appended |
| Composition.ComposeChildren | src/jiffy.js:104 | the counter never goes back and composer calls are only appended |
| Composition.StoreResult | src/jiffy.js:122 | storing the result caches the value at the given position and changes nothing else: not the counter, not the composer calls, no other field of the record and no other cached position |
| Composition.Dispatch | src/jiffy.js:106-120 | the counter never goes back and composer calls are only appended |
| Composition.Expand | src/jiffy.js:113-116 | the counter never goes back and composer calls are only appended |
| Composition.ComposeAll | src/jiffy.js:65-67 | one result per element; the counter never goes back |
| CompositionLaws.RawPassesThrough | src/jiffy.js:84-86 | a truthy string or number is returned unchanged after taking one position, and nothing else changes |
| CompositionLaws.InvalidYieldsUndefined | src/jiffy.js:75-82 | a falsy subject, or a non-raw one without a truthy `__c`, yields `undefined` after taking one position, and nothing else changes |
| CompositionLaws.CacheHitShortCircuits | src/jiffy.js:88-98 | when the stored fingerprint at the node's position matches and the cached value is truthy, the cached value is returned after taking only that position: no child is composed, the composer is not called and the record is unchanged |
| CompositionLaws.ArrayMapsElements | src/jiffy.js:65-67 | an array is composed element by element, each element continuing the counter where the previous one stopped |
| CompositionLaws.EmptyArrayIsFree | src/jiffy.js:65-67 | an empty array allocates nothing and changes nothing |
| CompositionLaws.NoAllocExactly | src/jiffy.js:64-71 | a composition leaves the counter where it was exactly when the subject consists only of nested arrays |
| CompositionLaws.NoAllocAllExactly | src/jiffy.js:65-67 | the elements of an array together leave the counter where it was exactly when each element consists only of nested arrays |
| CompositionLaws.ComposeOnMiss | src/jiffy.js:100-124 | on a cache miss, a node yields what the dispatch on its target yields after its children were composed, and that value is stored at the counter's final value |
| CompositionLaws.NullTargetYieldsChildren | src/jiffy.js:107-109 | the target "null" yields the composed children unchanged, without calling the composer |
| CompositionLaws.IntrinsicCallsComposerOnce | src/jiffy.js:107-111 | with a composer that does not re-enter `compose`, any other string target calls the composer exactly once, with the node and its composed children, and yields its result |
| CompositionLaws.IntrinsicComposesAgain | src/jiffy.js:147-148 | under `composeString`, a string target other than "null" is composed a second time, starting where its children left the counter; that composition allocates further positions, its value is the node's result, and it is cached at the final counter |
| CompositionLaws.OtherTargetYieldsUndefined | src/jiffy.js:117-120 | an unsupported target yields `undefined` without calling the composer |
| CompositionLaws.ComponentComposesOutput | src/jiffy.js:113-116 | a function target runs its hooks at the counter's value after the children, and the node yields the composition of the function's output |
| CompositionLaws.ComposeFrame | src/jiffy.js:64-125 | a composition changes the record only at the positions it allocates, and only ever adds effect flags |
| CompositionLaws.ExpandFrame | src/jiffy.js:113-116 | a component changes the record only from the counter's current position up to the end of its output |
| CompositionLaws.DispatchKeepsHashAt | src/jiffy.js:106-120 | the dispatch on the target never overwrites a fingerprint at or before the counter's value it starts from |
| CompositionLaws.MissStoresHashAndResult | src/jiffy.js:100-122 | after a miss, the node's fingerprint is at its own position, the counter ends at or after that position, and the result is cached at the counter's final value |
| CompositionLaws.MissAllocation | src/jiffy.js:104-122 | after a miss, the result's position equals the node's own only if its children allocate nothing; for a target that is neither a component nor a tag under `composeString` also the other way round; a tag under `composeString` always allocates past its own position |
| CompositionLaws.MissLeavesOwnEntry | src/jiffy.js:100-122 | after a miss at a node whose children allocate, the counter ends past the node's own position and the result cached at that position, or its absence, is left as it was |
| CompositionLaws.ComponentHooksFromSlotOne | src/jiffy.js:69-116 | a component node without children runs its hooks at its own position with both hook indices reset to 0, and yields the composition of its function's output |
| CompositionLaws.ParentResultCachedAtLastLeaf | src/jiffy.js:89-122 | with a composer that does not re-enter `compose`, for a non-component node whose only child is a childless non-component node, the child's position ends up holding the child's fingerprint and the parent's result |
| CompositionEffects.ComposeKeepsEffectOnce | src/jiffy.js:252-265 | a whole composition keeps the effect-once invariant |
| CompositionState.ComposeKeepsTruthySlot | src/jiffy.js:64-124 | a whole composition, with every component's hooks, keeps every truthy state slot |
| CompositionState.StatePersists | src/jiffy.js:267-283 | once a `useState` call leaves a truthy value in its slot, a later call at the same position and slot after any composition in between returns the same value, whatever its default |
| StringBackend.NonEventEntries | src/jiffy.js:152-153 | the kept props are exactly those whose key is not truthy in the event-handler map, and there are no more of them than props |
| StringBackend.NonEventEntriesConcat | src/jiffy.js:152-153 | the filter keeps the order of the props |
| StringBackend.NonEventEntriesIdempotent | src/jiffy.js:152-153 | filtering twice is filtering once |
| StringBackend.Attributes | src/jiffy.js:152-154 | an attribute text appears exactly when some non-event prop renders to it as `key=value` |
| StringBackend.EventPropsInvisible | src/jiffy.js:4-12 | removing the event-handler props from a props object does not change the attributes |
| StringBackend.Tag | src/jiffy.js:151-156 | the tag is `<t `, then the attribute text, then `>`, then the content text, then `</t>`, each segment at its place and nothing else |
| StringBackend.TagFormUnique | src/jiffy.js:151-156 | that layout determines the text: two texts laid out from the same tag name, attributes and content are equal |
| StringBackend.TagText | src/jiffy.js:149-156 | the tag of a node is laid out from its target, its non-event attributes joined by spaces, and its children's texts concatenated |
| StringBackend.StringComposer | src/jiffy.js:148-157 | the tag builder inside `composeString` always yields a string, laid out as the node's tag with its attributes and content |
| StringBackend.StringSink | src/jiffy.js:249 | a string result is output as it is, and an array of results is joined with newlines |
| StringBackend.SinkSplitsBack | src/jiffy.js:249 | for a non-empty array of results in which no element text contains a newline, splitting the output at newlines gives back the element texts |
| Render.ClearMounts | src/jiffy.js:197-200 | every mount list is emptied while the effect records, their unmount lists and the flags stay |
| Render.ClearedEffectOnce | src/jiffy.js:197-200 | after the clear the effect-once invariant holds for the flags set so far |
| Render.LiveFns | src/jiffy.js:207-208 | the callbacks fired at a position are exactly the functions in its mount list |
| Render.FireAt | src/jiffy.js:206-211 | firing a position calls its live callbacks and appends what they return to its unmount list; no mount list and no other position changes |
| Render.FireRangeCounts | src/jiffy.js:206-212 | firing a range of positions fires, at each position in the range, exactly its live callbacks, and nothing outside it |
| Render.FireRangeOnce | src/jiffy.js:206-212 | on a record keeping the effect-once invariant, firing a range fires each position at most once, and only a position flagged during the pass |
| Render.Prepared | src/jiffy.js:170-200 | the pass starts from the existing record, or an empty one, with every mount list cleared |
| Render.RenderPass | src/jiffy.js:161-217 | the target has a record afterwards, other targets are untouched, no effect flag is lost and the record is not in progress |
| Render.RenderPassKeepsTruthySlot | src/jiffy.js:161-217 | a render pass keeps every truthy state slot of its target |
| Render.StatePersistsAcrossPasses | src/jiffy.js:267-283 | after a render pass, a `useState` call at a slot that held a truthy value before the pass returns a clone of that value, whatever its default |
| Render.NothingLiveOutsidePass | src/jiffy.js:206-212 | after the walk no position outside those it allocated holds a live callback, so firing the allocated positions fires every callback |
| Render.RenderFiresOnce | src/jiffy.js:252-265 | in one pass each position fires at most one callback, only if it was first flagged during the pass, and its flag stays set |
| Render.NoPositionFiresTwice | src/jiffy.js:258-261 | across two passes over the same target, with no flag cleared in between, no position fires in both |
| Render.RenderString | src/jiffy.js:241-250 | `renderString`, which composes with `composeString` and its second composition of every tag, outputs a string and leaves a record for its id |
| Render.RenderHashesSubjectAtZero | src/jiffy.js:195-202 | unless the cache hits, the subject of a pass is fingerprinted at position 0 |
| Render.RenderCacheHit | src/jiffy.js:195-203 | when the fingerprint at position 0 matches and a truthy result is cached there, the pass renders the cached result and calls no composer |
| Render.StaleResultServed | src/jiffy.js:92-203 | when position 0 holds a truthy result from an earlier pass over another tree and the subject's children allocate, one pass over the subject fingerprints it next to that result, and the next pass over the same subject renders the stale result and calls no composer |
| Render.HelloTag | src/jiffy.js:151-156 | a `div` with no props around the text "hello" becomes `<div >hello</div>` |
| Render.TextTagComposes | src/jiffy.js:100-122 | with a composer that does not re-enter, a tag whose only child is a non-empty text puts the text at the next position, calls the composer once with the text, and changes the record only by its fingerprint at its own position and its result at the text's position |
| Render.TextTagComposesTwice | src/jiffy.js:147-148 | under `composeString` that tag takes positions p and p+2 with its text at p+1 and p+3; the tag builder is called once; the record gains the fingerprint at p and at p+2 and the result only at p+3, and nothing else |
| Render.TextTagPass | src/jiffy.js:241-250 | a `renderString` pass over that tag outputs the tag text, calls the tag builder once, fingerprints positions 0 and 2, and caches the result at 3 only |
| Render.TextTagFirstPass | src/jiffy.js:101-122 | on a new target, the pass leaves fingerprints exactly at 0 and 2 and a cached result exactly at 3 |
| Render.TextTagSecondPassComposesAgain | src/jiffy.js:89-122 | a second pass over the same tag finds no result cached at the positions it checks, so it calls the tag builder again and renders the same text |
| Render.HelloPass | src/jiffy.js:241-250 | `renderString` of `<div>hello</div>` renders `<div >hello</div>`, calls the tag builder once, fingerprints positions 0 and 2 and caches the result at 3 only |
| Render.EffectLeafComposes | src/jiffy.js:113-116 | a childless component that makes one `useEffect(f)` call and returns a raw value takes the next position and its output the one after; its position is flagged and holds `f` in effect slot 1 unless it was flagged before; nothing outside those two positions changes |
| Render.TagOverEffectLeaf | src/jiffy.js:104-122 | with a composer that does not re-enter, a tag whose only child is that component runs it once, at the position after the tag's, and calls the composer once |
| Render.TagOverEffectLeafTwice | src/jiffy.js:147-148 | under `composeString` the same tag runs the component twice, three positions apart; both positions are flagged and hold `f` in slot 1 unless flagged before, and the tag builder is called once |
| Render.EffectFiresTwiceUnderTag | src/jiffy.js:241-250 | on a new target, a `renderString` pass over that tag runs the component at positions 1 and 4, flags exactly those, and fires `f` once at each |

## Left out

- The DOM backend (`composeDOM`, `appendTo`, `renderDOM`, src/jiffy.js:24-32, 127-145, 219-238) is left out. It works only through host DOM APIs.
- Concurrency is left out. The siblings of an array are composed in order, and `Promise.all` interleaving is not modelled. In JavaScript the synchronous parts of sibling compositions can interleave and number positions differently. The model assumes the sequential depth-first reading.
- The `isRendering` busy-wait lock (src/jiffy.js:160-166, 215) is left out, because it only serialises passes. Each pass runs on its own here.
- The re-render emitter (src/jiffy.js:186-192, 295) is left out. Subscribing is the `listener` flag being set, and the setter returns the target to re-render instead of emitting.
- `uuid` (src/jiffy.js:54-58) is left out: `RenderString` takes the render id as a parameter.
- `console` output is left out.
- md5 and the text of `JSON.stringify` are left out. The fingerprint is the position paired with the JSON tree, which assumes md5 has no collisions.
- `Object.keys` puts integer-like keys first. Field lists here are kept in insertion order, and their keys are taken to be distinct.
- Function values are identified by an id. Their source text, which `String(f)` would print, is replaced by a fixed marker. `cloneDeep`'s wrapper function is taken to be the function it wraps.
- Component behaviour is a fixed script per function: its hook calls do not depend on props or state.
- What an effect function returns is the `ret` parameter. Effect functions cannot change the record while they are fired.
- The setter's shallow-merge branch (src/jiffy.js:286-289) is not modelled: it is unreachable, because the condition on line 285 throws first.
- `Value` numbers are unbounded integers. Floating point, `NaN` and `-0` are not modelled.
- Composition.Compose: component outputs are expanded at most `fuel` levels deep. A deeper expansion yields `undefined` and sets `outOfFuel`, where the source would keep going or recurse forever.
- StringBackend.TagText: a hand-built node whose props are `null` makes `Object.keys` throw in the source, but the model renders it without attributes. `composable` never builds such a node.
- Render.RenderPass fires positions 0 up to the final counter instead of walking every effect record. `Render.NothingLiveOutsidePass` shows that no other position holds a live callback, so the same callbacks fire.
- Composition.Compose: its own contract states only that positions are allocated and calls appended. What it yields is stated by the `CompositionLaws` lemmas.
- Composition.ComposeNode: its own contract states only monotonicity. The cache check and the miss path are stated by `CompositionLaws.CacheHitShortCircuits` and `CompositionLaws.ComposeOnMiss`.
- Composition.ComposeChildren: its own contract states only monotonicity. The children are composed as an array, which `CompositionLaws.ArrayMapsElements` describes.
- Composition.Dispatch: its own contract states only monotonicity. Each kind of target is covered by its own `CompositionLaws` lemma.
- Composition.Expand: its own contract states only monotonicity. `CompositionLaws.ComponentComposesOutput` and `CompositionLaws.ExpandFrame` state what it does.
- Composition.ComposeAll: its own contract does not say that result i is the composition of element i. `CompositionLaws.ArrayMapsElements` states that.
- CompositionLaws.ParentResultCachedAtLastLeaf: stated only for a composer that does not re-enter `compose`. Under `composeString` the parent is composed a second time and its result lands past that second composition, as `Render.TextTagComposesTwice` shows for a text child.

=== FILE: compose.dfy ===
/** The composition walker `compose` (src/jiffy.js:64-125), read
    sequentially: every `await` returns at once, and the elements of an
    array are composed left to right, depth first.

    The walk threads the pass globals (`Walk`) explicitly. A component's
    function is looked up by id in a fixed table of scripts: the hooks it
    calls, in order, and the tree it returns given its props and the values
    its `useState` calls returned. The backend composer is a parameter.

    `render` may be handed a composer that itself calls `compose`:
    `renderString` passes `composeString` (line 249), which ignores the
    composed children and composes the node once more with its own
    tag-building function (lines 147-148), on the same counter and record.
    An `Env` whose `reenter` flag is set models that composer. */
module Composition {
  import opened Values
  import opened Hashing
  import opened Nodes
  import opened Records
  import opened Hooks

  datatype Script = Script(hooks: seq<Hook>, view: (Value, seq<Value>) -> Value)

  /** `composer` builds one intrinsic node's output from the node and its
      composed children; `scripts` gives each component function's body.
      Without `reenter`, `composer` is what `compose` is handed. With
      `reenter`, `compose` is handed `raw => compose(raw, composer)`
      instead, as `composeString` is. */
  datatype Env = Env(composer: (Value, Value) -> Value, scripts: nat -> Script, reenter: bool)

  /** The environment of the nested `compose(raw, composer)` call. */
  function Inner(env: Env): Env {
    env.(reenter := false)
  }

  /** The dispatch on `node` composes it again: an intrinsic tag handed to
      a re-entrant composer. */
  predicate Reenters(env: Env, node: Value) {
    env.reenter && TargetOf(node).Intrinsic? && TargetOf(node).name != "null"
  }

  datatype Composed = Composed(value: Value, walk: Walk)
  datatype ComposedAll = ComposedAll(values: seq<Value>, walk: Walk)

  /** Lines 69-71: allocate the next position and reset the hook indices. */
  function Enter(w: Walk): (r: Walk)
    ensures r.offset == w.offset + 1 && r.rec == w.rec && r.calls == w.calls
    ensures r.stateIndex == 0 && r.effectIndex == 0
  {
    w.(offset := w.offset + 1, stateIndex := 0, effectIndex := 0)
  }

  /** Lines 93-98: the stored fingerprint at `pos` equals the new one and
      the value cached at `pos` is truthy. */
  predicate CacheHit(rec: Record, pos: int, key: Key) {
    pos in rec.hash && rec.hash[pos] == key && pos in rec.rendered && Truthy(rec.rendered[pos])
  }

  /** `compose(subject, composer)`. `fuel` bounds how deeply component
      outputs are expanded; when it runs out the walk is flagged
      `outOfFuel` and the component yields `undefined`. */
  function Compose(env: Env, subject: Value, w: Walk, fuel: nat): (r: Composed)
    ensures r.walk.offset >= w.offset + (if subject.Arr? then 0 else 1)
    ensures w.calls <= r.walk.calls
    decreases fuel, env.reenter, subject, 3
  {
    if subject.Arr? then
      var all := ComposeAll(env, subject.items, w, fuel);
      Composed(Arr(all.values), all.walk)
    else
      var w1 := Enter(w);
      if IsInvalidSubject(subject) then Composed(Undef, w1)
      else if IsRaw(subject) then Composed(subject, w1)
      else ComposeNode(env, subject, w1, fuel)
  }

  /** Lines 88-124, for a node whose position `w.offset` is already
      allocated: the cache check, then the hash update, the children, the
      target dispatch, and the store of the result at the counter's value
      after all of that. */
  function ComposeNode(env: Env, node: Value, w: Walk, fuel: nat): (r: Composed)
    ensures r.walk.offset >= w.offset
    ensures w.calls <= r.walk.calls
    decreases fuel, env.reenter, node, 2
  {
    var pos := w.offset;
    var key := HashOf(node, pos);
    if CacheHit(w.rec, pos, key) then Composed(w.rec.rendered[pos], w)
    else
      var w2 := w.(rec := w.rec.(hash := w.rec.hash[pos := key]));
      var content := ComposeChildren(env, node, w2, fuel);
      var out := Dispatch(env, node, content, fuel);
      Composed(out.value, StoreResult(out.walk, out.walk.offset, out.value))
  }

  /** Line 104: `compose(composed.children, composer)`. A node without a
      `children` field composes `undefined`, which takes a position and
      yields `undefined`. */
  function ComposeChildren(env: Env, node: Value, w: Walk, fuel: nat): (r: Composed)
    ensures r.walk.offset >= w.offset
    ensures w.calls <= r.walk.calls
    decreases fuel, env.reenter, node, 1
  {
    match node
    case Obj(fs) =>
      (match IndexOf(fs, "children")
       case Some(i) => Compose(env, fs[i].1, w, fuel)
       case None => Composed(Undef, Enter(w)))
    case _ => Composed(Undef, Enter(w))
  }

  /** Line 122: `rendered[renderComposeOffset] = result`. */
  function StoreResult(w: Walk, at: int, v: Value): (r: Walk)
    ensures r.offset == w.offset && r.calls == w.calls
    ensures at in r.rec.rendered && r.rec.rendered[at] == v
    ensures r.rec == w.rec.(rendered := r.rec.rendered)
    ensures AgreeOutside(w.rec.rendered, r.rec.rendered, at - 1, at)
  {
    w.(rec := w.rec.(rendered := w.rec.rendered[at := v]))
  }

  /** Lines 106-120: what a node yields once its children are composed.
      A re-entrant composer ignores the children's result and composes the
      node again from the current counter (lines 147-148). */
  function Dispatch(env: Env, node: Value, content: Composed, fuel: nat): (r: Composed)
    ensures r.walk.offset >= content.walk.offset
    ensures content.walk.calls <= r.walk.calls
    decreases fuel, env.reenter, node, 1
  {
    match TargetOf(node)
    case Intrinsic(name) =>
      if name == "null" then content
      else if env.reenter then Compose(Inner(env), node, content.walk, fuel)
      else
        Composed(env.composer(node, content.value),
                 content.walk.(calls := content.walk.calls + [(node, content.value)]))
    case Component(id) =>
      if fuel == 0 then Composed(Undef, content.walk.(outOfFuel := true))
      else Expand(env, id, node, content.walk, fuel - 1)
    case Other => Composed(Undef, content.walk)
  }

  /** Lines 112-116: call component `id` with the node's props, its hooks
      keyed by the counter's current value, and compose what it returns. */
  function Expand(env: Env, id: nat, node: Value, w: Walk, fuel: nat): (r: Composed)
    ensures r.walk.offset >= w.offset
    ensures w.calls <= r.walk.calls
    decreases fuel + 1, env.reenter, node, 0
  {
    var script := env.scripts(id);
    var hooked := RunHooks(script.hooks, w);
    Compose(env, script.view(ComponentProps(node), hooked.0), hooked.1, fuel)
  }

  /** Line 66: an array is composed element by element; it takes no
      position of its own. */
  function ComposeAll(env: Env, items: seq<Value>, w: Walk, fuel: nat): (r: ComposedAll)
    ensures |r.values| == |items|
    ensures r.walk.offset >= w.offset
    ensures w.calls <= r.walk.calls
    decreases fuel, env.reenter, items, 4
  {
    if items == [] then ComposedAll([], w)
    else
      var first := Compose(env, items[0], w, fuel);
      var rest := ComposeAll(env, items[1..], first.walk, fuel);
      ComposedAll([first.value] + rest.values, rest.walk)
  }
}

=== FILE: compose_effects.dfy ===
/** The effect-once invariant across a whole composition walk: starting
    from a record in which no position flagged before the pass holds a
    live callback, a walk ends with at most one live callback per
    position, and only at positions the walk itself flagged. */
module CompositionEffects {
  import opened Values
  import opened Hashing
  import opened Nodes
  import opened Records
  import opened Hooks
  import opened Composition
  import opened CompositionLaws

  /** The invariant only reads the effect lists and the flags. */
  lemma EffectOnceSameEffects(e0: set<int>, a: Record, b: Record)
    requires EffectOnce(e0, a)
    requires a.effects == b.effects && a.effected == b.effected
    ensures EffectOnce(e0, b)
  {
    assert forall p :: MountAt(a, p) == MountAt(b, p);
  }

  lemma {:induction false} ComposeKeepsEffectOnce(e0: set<int>, env: Env, v: Value, w: Walk, fuel: nat)
    requires EffectOnce(e0, w.rec)
    ensures EffectOnce(e0, Compose(env, v, w, fuel).walk.rec)
    decreases fuel, env.reenter, v, 3
  {
    if v.Arr? {
      ComposeAllKeepsEffectOnce(e0, env, v.items, w, fuel);
    } else if !IsInvalidSubject(v) && !IsRaw(v) {
      ComposeNodeKeepsEffectOnce(e0, env, v, Enter(w), fuel);
    }
  }

  lemma {:induction false} ComposeNodeKeepsEffectOnce(e0: set<int>, env: Env, node: Value, w: Walk, fuel: nat)
    requires EffectOnce(e0, w.rec)
    ensures EffectOnce(e0, ComposeNode(env, node, w, fuel).walk.rec)
    decreases fuel, env.reenter, node, 2
  {
    var pos := w.offset;
    var key := HashOf(node, pos);
    if !CacheHit(w.rec, pos, key) {
      var w2 := w.(rec := w.rec.(hash := w.rec.hash[pos := key]));
      EffectOnceSameEffects(e0, w.rec, w2.rec);
      var content := ComposeChildren(env, node, w2, fuel);
      ComposeChildrenKeepsEffectOnce(e0, env, node, w2, fuel);
      var out := Dispatch(env, node, content, fuel);
      DispatchKeepsEffectOnce(e0, env, node, content, fuel);
      var stored := StoreResult(out.walk, out.walk.offset, out.value);
      EffectOnceSameEffects(e0, out.walk.rec, stored.rec);
    }
  }

  lemma {:induction false} ComposeChildrenKeepsEffectOnce(e0: set<int>, env: Env, node: Value, w: Walk, fuel: nat)
    requires EffectOnce(e0, w.rec)
    ensures EffectOnce(e0, ComposeChildren(env, node, w, fuel).walk.rec)
    decreases fuel, env.reenter, node, 1
  {
    match node
    case Obj(fs) => {
      match IndexOf(fs, "children")
      case Some(i) => ComposeKeepsEffectOnce(e0, env, fs[i].1, w, fuel);
      case None =>
    }
    case _ =>
  }

  lemma {:induction false} DispatchKeepsEffectOnce(e0: set<int>, env: Env, node: Value, content: Composed, fuel: nat)
    requires EffectOnce(e0, content.walk.rec)
    ensures EffectOnce(e0, Dispatch(env, node, content, fuel).walk.rec)
    decreases fuel, env.reenter, node, 1
  {
    if TargetOf(node).Component? && fuel > 0 {
      ComponentKeepsEffectOnce(e0, env, node, content, fuel);
    } else if Reenters(env, node) {
      ReentryKeepsEffectOnce(e0, env, node, content, fuel);
    } else {
      DispatchKeepsRecord(env, node, content, fuel);
    }
  }

  lemma {:induction false} ReentryKeepsEffectOnce(e0: set<int>, env: Env, node: Value, content: Composed, fuel: nat)
    requires Reenters(env, node)
    requires EffectOnce(e0, content.walk.rec)
    ensures EffectOnce(e0, Dispatch(env, node, content, fuel).walk.rec)
    decreases fuel, env.reenter, node, 0
  {
    DispatchOnReentry(env, node, content, fuel);
    ComposeKeepsEffectOnce(e0, Inner(env), node, content.walk, fuel);
  }

  lemma {:induction false} ComponentKeepsEffectOnce(e0: set<int>, env: Env, node: Value, content: Composed, fuel: nat)
    requires TargetOf(node).Component? && fuel > 0
    requires EffectOnce(e0, content.walk.rec)
    ensures EffectOnce(e0, Dispatch(env, node, content, fuel).walk.rec)
    decreases fuel, env.reenter, node, 0
  {
    DispatchIsExpand(env, node, content, fuel);
    ExpandKeepsEffectOnce(e0, env, TargetOf(node).id, node, content.walk, fuel - 1);
  }

  lemma {:induction false} ExpandKeepsEffectOnce(e0: set<int>, env: Env, id: nat, node: Value, w: Walk, fuel: nat)
    requires EffectOnce(e0, w.rec)
    ensures EffectOnce(e0, Expand(env, id, node, w, fuel).walk.rec)
    decreases fuel + 1, env.reenter, node, -1
  {
    var script := env.scripts(id);
    var hooked := RunHooks(script.hooks, w);
    RunHooksKeepsEffectOnce(e0, script.hooks, w);
    ComposeKeepsEffectOnce(e0, env, script.view(ComponentProps(node), hooked.0), hooked.1, fuel);
  }

  lemma {:induction false} ComposeAllKeepsEffectOnce(e0: set<int>, env: Env, items: seq<Value>, w: Walk, fuel: nat)
    requires EffectOnce(e0, w.rec)
    ensures EffectOnce(e0, ComposeAll(env, items, w, fuel).walk.rec)
    decreases fuel, env.reenter, items, 4
  {
    if items != [] {
      var first := Compose(env, items[0], w, fuel);
      ComposeKeepsEffectOnce(e0, env, items[0], w, fuel);
      ComposeAllKeepsEffectOnce(e0, env, items[1..], first.walk, fuel);
    }
  }
}

=== FILE: compose_laws.dfy ===
/** Laws of the composition walker: what one call allocates, what a cache
    hit skips, where the fingerprint and the result are stored, what the
    dispatch on the target does, and which record entries a walk may touch. */
module CompositionLaws {
  import opened Values
  import opened Hashing
  import opened Nodes
  import opened Records
  import opened Hooks
  import opened Composition

  // ---------------------------------------------------------------------
  // One call (lines 65-98)

  /** A raw string or number is returned unchanged; it still takes one
      position, and nothing else is touched. */
  lemma RawPassesThrough(env: Env, v: Value, w: Walk, fuel: nat)
    requires IsRaw(v) && Truthy(v)
    ensures Compose(env, v, w, fuel) == Composed(v, Enter(w))
  {
  }

  /** A falsy subject (including `0` and `""`) or a non-raw value without a
      truthy `__c` yields `undefined` after taking one position, without
      looking inside it. */
  lemma InvalidYieldsUndefined(env: Env, v: Value, w: Walk, fuel: nat)
    requires !v.Arr? && IsInvalidSubject(v)
    ensures Compose(env, v, w, fuel) == Composed(Undef, Enter(w))
  {
  }

  /** A cache hit returns the cached value at the node's position. Only
      that position is allocated: no child is composed, the composer is not
      called, and the record is unchanged. */
  lemma CacheHitShortCircuits(env: Env, node: Value, w: Walk, fuel: nat)
    requires IsNode(node)
    requires CacheHit(w.rec, w.offset + 1, HashOf(node, w.offset + 1))
    ensures Compose(env, node, w, fuel) == Composed(w.rec.rendered[w.offset + 1], Enter(w))
  {
  }

  /** An array takes no position itself: its elements are composed in
      order, each continuing the counter where the previous one stopped. */
  lemma ArrayMapsElements(env: Env, items: seq<Value>, w: Walk, fuel: nat)
    requires |items| > 0
    ensures Compose(env, Arr(items), w, fuel).value.items[0] == Compose(env, items[0], w, fuel).value
    ensures Compose(env, Arr(items), w, fuel) ==
              var first := Compose(env, items[0], w, fuel);
              var rest := Compose(env, Arr(items[1..]), first.walk, fuel);
              Composed(Arr([first.value] + rest.value.items), rest.walk)
  {
  }

  lemma EmptyArrayIsFree(env: Env, w: Walk, fuel: nat)
    ensures Compose(env, Arr([]), w, fuel) == Composed(Arr([]), w)
  {
  }

  /** A value whose composition allocates nothing: an array of such values. */
  predicate NoAlloc(v: Value) {
    v.Arr? && forall i :: 0 <= i < |v.items| ==> NoAlloc(v.items[i])
  }

  /** Composition leaves the counter where it was exactly when the subject
      is made only of (nested) arrays: every other subject anywhere inside
      takes a position. */
  lemma {:induction false} NoAllocExactly(env: Env, v: Value, w: Walk, fuel: nat)
    ensures Compose(env, v, w, fuel).walk.offset == w.offset <==> NoAlloc(v)
    decreases v, 1
  {
    if v.Arr? {
      NoAllocAllExactly(env, v.items, w, fuel);
    }
  }

  lemma {:induction false} NoAllocAllExactly(env: Env, items: seq<Value>, w: Walk, fuel: nat)
    ensures ComposeAll(env, items, w, fuel).walk.offset == w.offset <==>
              forall i :: 0 <= i < |items| ==> NoAlloc(items[i])
    decreases items, 0
  {
    if items != [] {
      var first := Compose(env, items[0], w, fuel);
      NoAllocExactly(env, items[0], w, fuel);
      NoAllocAllExactly(env, items[1..], first.walk, fuel);
      assert forall i :: 1 <= i < |items| ==> items[i] == items[1..][i - 1];
    }
  }

  // ---------------------------------------------------------------------
  // The target dispatch (lines 106-120)

  /** Children composed from `w` for `node` (line 104). */
  function ChildrenOf(env: Env, node: Value, w: Walk, fuel: nat): Composed {
    Compose(env, Member(node, "children"), w, fuel)
  }

  lemma ComposeChildrenIsCompose(env: Env, node: Value, w: Walk, fuel: nat)
    ensures ComposeChildren(env, node, w, fuel) == ChildrenOf(env, node, w, fuel)
  {
  }

  /** The walk state a node's children start from after a cache miss. */
  function MissWalk(node: Value, w: Walk): Walk {
    var pos := w.offset + 1;
    Enter(w).(rec := w.rec.(hash := w.rec.hash[pos := HashOf(node, pos)]))
  }

  lemma ComposeOfNode(env: Env, node: Value, w: Walk, fuel: nat)
    requires IsNode(node)
    ensures Compose(env, node, w, fuel) == ComposeNode(env, node, Enter(w), fuel)
  {
  }

  lemma ComposeNodeOnMiss(env: Env, node: Value, w: Walk, fuel: nat)
    requires !CacheHit(w.rec, w.offset, HashOf(node, w.offset))
    ensures var w2 := w.(rec := w.rec.(hash := w.rec.hash[w.offset := HashOf(node, w.offset)]));
            var out := Dispatch(env, node, ComposeChildren(env, node, w2, fuel), fuel);
            ComposeNode(env, node, w, fuel) == Composed(out.value, StoreResult(out.walk, out.walk.offset, out.value))
  {
  }

  /** After a cache miss, a node yields what the dispatch on its target
      yields, and that value is stored at the counter's final value. */
  lemma ComposeOnMiss(env: Env, node: Value, w: Walk, fuel: nat)
    requires IsNode(node)
    requires !CacheHit(w.rec, w.offset + 1, HashOf(node, w.offset + 1))
    ensures var out := Dispatch(env, node, ChildrenOf(env, node, MissWalk(node, w), fuel), fuel);
            Compose(env, node, w, fuel) == Composed(out.value, StoreResult(out.walk, out.walk.offset, out.value))
  {
    ComposeOfNode(env, node, w, fuel);
    ComposeNodeOnMiss(env, node, Enter(w), fuel);
    ComposeChildrenIsCompose(env, node, MissWalk(node, w), fuel);
  }

  lemma DispatchOnNull(env: Env, node: Value, c: Composed, fuel: nat)
    requires TargetOf(node) == Intrinsic("null")
    ensures Dispatch(env, node, c, fuel) == c
  {
  }

  lemma DispatchOnIntrinsic(env: Env, node: Value, c: Composed, fuel: nat)
    requires TargetOf(node).Intrinsic? && TargetOf(node).name != "null" && !env.reenter
    ensures Dispatch(env, node, c, fuel) ==
              Composed(env.composer(node, c.value), c.walk.(calls := c.walk.calls + [(node, c.value)]))
  {
  }

  lemma DispatchOnReentry(env: Env, node: Value, c: Composed, fuel: nat)
    requires Reenters(env, node)
    ensures Dispatch(env, node, c, fuel) == Compose(Inner(env), node, c.walk, fuel)
  {
  }

  lemma DispatchOnOther(env: Env, node: Value, c: Composed, fuel: nat)
    requires TargetOf(node).Other?
    ensures Dispatch(env, node, c, fuel) == Composed(Undef, c.walk)
  {
  }

  lemma ExpandUnfold(env: Env, id: nat, node: Value, w: Walk, fuel: nat)
    ensures var script := env.scripts(id);
            var hooked := RunHooks(script.hooks, w);
            Expand(env, id, node, w, fuel) == Compose(env, script.view(ComponentProps(node), hooked.0), hooked.1, fuel)
  {
  }

  /** A node whose target is the string "null" yields its composed
      children as they are, without calling the composer. */
  lemma NullTargetYieldsChildren(env: Env, node: Value, w: Walk, fuel: nat)
    requires IsNode(node) && TargetOf(node) == Intrinsic("null")
    requires !CacheHit(w.rec, w.offset + 1, HashOf(node, w.offset + 1))
    ensures var c := ChildrenOf(env, node, MissWalk(node, w), fuel);
            var r := Compose(env, node, w, fuel);
            r.value == c.value && r.walk.calls == c.walk.calls && r.walk.offset == c.walk.offset
  {
    ComposeOnMiss(env, node, w, fuel);
    DispatchOnNull(env, node, ChildrenOf(env, node, MissWalk(node, w), fuel), fuel);
  }

  /** Any other string target calls a composer that does not re-enter
      exactly once, with the node and its composed children, and yields
      what it returns. */
  lemma IntrinsicCallsComposerOnce(env: Env, node: Value, w: Walk, fuel: nat)
    requires IsNode(node) && TargetOf(node).Intrinsic? && TargetOf(node).name != "null" && !env.reenter
    requires !CacheHit(w.rec, w.offset + 1, HashOf(node, w.offset + 1))
    ensures var c := ChildrenOf(env, node, MissWalk(node, w), fuel);
            var r := Compose(env, node, w, fuel);
            r.value == env.composer(node, c.value) &&
            r.walk.calls == c.walk.calls + [(node, c.value)] &&
            r.walk.offset == c.walk.offset
  {
    ComposeOnMiss(env, node, w, fuel);
    DispatchOnIntrinsic(env, node, ChildrenOf(env, node, MissWalk(node, w), fuel), fuel);
  }

  /** On a miss, a tag under a re-entrant composer yields its second
      composition, from where its children left the counter, stored at
      the counter's final value. */
  lemma ComposeOnReentry(env: Env, node: Value, w: Walk, fuel: nat)
    requires IsNode(node) && Reenters(env, node)
    requires !CacheHit(w.rec, w.offset + 1, HashOf(node, w.offset + 1))
    ensures var c := ChildrenOf(env, node, MissWalk(node, w), fuel);
            var again := Compose(Inner(env), node, c.walk, fuel);
            Compose(env, node, w, fuel) == Composed(again.value, StoreResult(again.walk, again.walk.offset, again.value))
  {
    ComposeOnMiss(env, node, w, fuel);
    DispatchOnReentry(env, node, ChildrenOf(env, node, MissWalk(node, w), fuel), fuel);
  }

  /** A re-entrant composer (`composeString`) ignores the composed
      children: the node is entered once more at the next free position,
      its children are composed a second time below it, and the value the
      node yields is what that nested composition yields; the outer call
      then caches it at the counter's final value. */
  lemma IntrinsicComposesAgain(env: Env, node: Value, w: Walk, fuel: nat)
    requires IsNode(node) && Reenters(env, node)
    requires !CacheHit(w.rec, w.offset + 1, HashOf(node, w.offset + 1))
    ensures var c := ChildrenOf(env, node, MissWalk(node, w), fuel);
            var again := Compose(Inner(env), node, c.walk, fuel);
            var r := Compose(env, node, w, fuel);
            && again.walk.offset > c.walk.offset
            && r.value == again.value && r.walk.offset == again.walk.offset && r.walk.calls == again.walk.calls
            && r.walk.offset in r.walk.rec.rendered && r.walk.rec.rendered[r.walk.offset] == again.value
  {
    ComposeOnReentry(env, node, w, fuel);
  }

  /** A target that is neither a string nor a function (an object, an
      array, `null`, a boolean, a number, `undefined`) yields `undefined`
      without calling the composer. */
  lemma OtherTargetYieldsUndefined(env: Env, node: Value, w: Walk, fuel: nat)
    requires IsNode(node) && TargetOf(node).Other?
    requires !CacheHit(w.rec, w.offset + 1, HashOf(node, w.offset + 1))
    ensures var c := ChildrenOf(env, node, MissWalk(node, w), fuel);
            var r := Compose(env, node, w, fuel);
            r.value == Undef && r.walk.calls == c.walk.calls && r.walk.offset == c.walk.offset
  {
    ComposeOnMiss(env, node, w, fuel);
    DispatchOnOther(env, node, ChildrenOf(env, node, MissWalk(node, w), fuel), fuel);
  }

  /** A function target runs after the node's children were composed: its
      hooks are keyed by the counter's value at that moment, and its output
      is composed from there. */
  lemma ComponentComposesOutput(env: Env, node: Value, w: Walk, fuel: nat)
    requires IsNode(node) && TargetOf(node).Component? && fuel > 0
    requires !CacheHit(w.rec, w.offset + 1, HashOf(node, w.offset + 1))
    ensures var c := ChildrenOf(env, node, MissWalk(node, w), fuel);
            var script := env.scripts(TargetOf(node).id);
            var hooked := RunHooks(script.hooks, c.walk);
            var o := Compose(env, script.view(ComponentProps(node), hooked.0), hooked.1, fuel - 1);
            var r := Compose(env, node, w, fuel);
            hooked.1.offset == c.walk.offset &&
            r.value == o.value && r.walk.offset == o.walk.offset && r.walk.calls == o.walk.calls
  {
    var c := ChildrenOf(env, node, MissWalk(node, w), fuel);
    ComposeOnMiss(env, node, w, fuel);
    DispatchIsExpand(env, node, c, fuel);
    ExpandUnfold(env, TargetOf(node).id, node, c.walk, fuel - 1);
  }

  // ---------------------------------------------------------------------
  // Which record entries a walk may touch

  /** Composing from `w` changes the record only at the positions it
      allocates, `(w.offset, r.offset]`; positions already passed and
      positions not yet reached keep their entries. */
  lemma {:induction false} ComposeFrame(env: Env, v: Value, w: Walk, fuel: nat)
    ensures var r := Compose(env, v, w, fuel);
            WindowFrame(w.rec, r.walk.rec, w.offset, r.walk.offset)
    decreases fuel, env.reenter, v, 3
  {
    if v.Arr? {
      ComposeAllFrame(env, v.items, w, fuel);
    } else if !IsInvalidSubject(v) && !IsRaw(v) {
      ComposeNodeFrame(env, v, Enter(w), fuel);
    }
  }

  lemma {:induction false} ComposeNodeFrame(env: Env, node: Value, w: Walk, fuel: nat)
    ensures var r := ComposeNode(env, node, w, fuel);
            WindowFrame(w.rec, r.walk.rec, w.offset - 1, r.walk.offset)
    decreases fuel, env.reenter, node, 2
  {
    var pos := w.offset;
    var key := HashOf(node, pos);
    if !CacheHit(w.rec, pos, key) {
      var w2 := w.(rec := w.rec.(hash := w.rec.hash[pos := key]));
      var content := ComposeChildren(env, node, w2, fuel);
      ComposeChildrenFrame(env, node, w2, fuel);
      var out := Dispatch(env, node, content, fuel);
      DispatchFrame(env, node, content, fuel);
      MissFrame(w.rec, key, content.walk.rec, out.walk.rec, out.value, pos, content.walk.offset, out.walk.offset);
    } else {
      WindowFrameRefl(w.rec, pos - 1, pos);
    }
  }

  /** The record changes of one cache miss, put together: the fingerprint
      write at `pos`, the children's window `(pos, co]`, the dispatch's
      window `(co - 1, oo]` and the result write at `oo`. */
  lemma MissFrame(a: Record, key: Key, c: Record, d: Record, v: Value, pos: int, co: int, oo: int)
    requires pos <= co <= oo
    requires WindowFrame(a.(hash := a.hash[pos := key]), c, pos, co)
    requires WindowFrame(c, d, co - 1, oo)
    ensures WindowFrame(a, d.(rendered := d.rendered[oo := v]), pos - 1, oo)
  {
    var b := a.(hash := a.hash[pos := key]);
    var e := d.(rendered := d.rendered[oo := v]);
    assert WindowFrame(a, b, pos - 1, pos);
    assert WindowFrame(d, e, oo - 1, oo);
    WindowFrameTrans(a, b, c, pos - 1, pos - 1, pos, pos, co, oo);
    WindowFrameTrans(a, c, d, pos - 1, pos - 1, oo, co - 1, oo, oo);
    WindowFrameTrans(a, d, e, pos - 1, pos - 1, oo, oo - 1, oo, oo);
  }

  lemma {:induction false} ComposeChildrenFrame(env: Env, node: Value, w: Walk, fuel: nat)
    ensures var r := ComposeChildren(env, node, w, fuel);
            WindowFrame(w.rec, r.walk.rec, w.offset, r.walk.offset)
    decreases fuel, env.reenter, node, 1
  {
    match node
    case Obj(fs) => {
      match IndexOf(fs, "children")
      case Some(i) => ComposeFrame(env, fs[i].1, w, fuel);
      case None =>
    }
    case _ =>
  }

  lemma {:induction false} DispatchFrame(env: Env, node: Value, content: Composed, fuel: nat)
    ensures var r := Dispatch(env, node, content, fuel);
            WindowFrame(content.walk.rec, r.walk.rec, content.walk.offset - 1, r.walk.offset)
    decreases fuel, env.reenter, node, 1
  {
    if TargetOf(node).Component? && fuel > 0 {
      ComponentDispatchFrame(env, node, content, fuel);
    } else if Reenters(env, node) {
      ReentryDispatchFrame(env, node, content, fuel);
    } else {
      DispatchKeepsRecord(env, node, content, fuel);
      WindowFrameRefl(content.walk.rec, content.walk.offset - 1, Dispatch(env, node, content, fuel).walk.offset);
    }
  }

  lemma {:induction false} ReentryDispatchFrame(env: Env, node: Value, content: Composed, fuel: nat)
    requires Reenters(env, node)
    ensures WindowFrame(content.walk.rec, Dispatch(env, node, content, fuel).walk.rec,
                        content.walk.offset - 1, Dispatch(env, node, content, fuel).walk.offset)
    decreases fuel, env.reenter, node, 0
  {
    var r := Compose(Inner(env), node, content.walk, fuel);
    DispatchOnReentry(env, node, content, fuel);
    ComposeFrame(Inner(env), node, content.walk, fuel);
    WindowFrameRefl(content.walk.rec, content.walk.offset - 1, content.walk.offset);
    WindowFrameTrans(content.walk.rec, content.walk.rec, r.walk.rec, content.walk.offset - 1,
                     content.walk.offset - 1, content.walk.offset, content.walk.offset, r.walk.offset, r.walk.offset);
  }

  lemma {:induction false} ComponentDispatchFrame(env: Env, node: Value, content: Composed, fuel: nat)
    requires TargetOf(node).Component? && fuel > 0
    ensures WindowFrame(content.walk.rec, Dispatch(env, node, content, fuel).walk.rec,
                        content.walk.offset - 1, Dispatch(env, node, content, fuel).walk.offset)
    decreases fuel, env.reenter, node, 0
  {
    DispatchIsExpand(env, node, content, fuel);
    ExpandFrame(env, TargetOf(node).id, node, content.walk, fuel - 1);
  }

  /** A component's hooks touch only its own position; what it returns is
      composed after it. */
  lemma {:induction false} ExpandFrame(env: Env, id: nat, node: Value, w: Walk, fuel: nat)
    ensures WindowFrame(w.rec, Expand(env, id, node, w, fuel).walk.rec,
                        w.offset - 1, Expand(env, id, node, w, fuel).walk.offset)
    decreases fuel + 1, env.reenter, node, -1
  {
    var script := env.scripts(id);
    var hooked := RunHooks(script.hooks, w);
    var out := script.view(ComponentProps(node), hooked.0);
    RunHooksFrame(script.hooks, w);
    ComposeFrame(env, out, hooked.1, fuel);
    var r := Compose(env, out, hooked.1, fuel);
    WindowFrameTrans(w.rec, hooked.1.rec, r.walk.rec, w.offset - 1, w.offset - 1, w.offset,
                     w.offset, r.walk.offset, r.walk.offset);
  }

  lemma {:induction false} ComposeAllFrame(env: Env, items: seq<Value>, w: Walk, fuel: nat)
    ensures var r := ComposeAll(env, items, w, fuel);
            WindowFrame(w.rec, r.walk.rec, w.offset, r.walk.offset)
    decreases fuel, env.reenter, items, 4
  {
    if items != [] {
      var first := Compose(env, items[0], w, fuel);
      ComposeFrame(env, items[0], w, fuel);
      var rest := ComposeAll(env, items[1..], first.walk, fuel);
      ComposeAllFrame(env, items[1..], first.walk, fuel);
      WindowFrameTrans(w.rec, first.walk.rec, rest.walk.rec, w.offset, w.offset, first.walk.offset,
                       first.walk.offset, rest.walk.offset, rest.walk.offset);
    }
  }

  lemma DispatchIsExpand(env: Env, node: Value, content: Composed, fuel: nat)
    requires TargetOf(node).Component? && fuel > 0
    ensures Dispatch(env, node, content, fuel) == Expand(env, TargetOf(node).id, node, content.walk, fuel - 1)
  {
  }

  lemma DispatchKeepsRecord(env: Env, node: Value, content: Composed, fuel: nat)
    requires !(TargetOf(node).Component? && fuel > 0) && !Reenters(env, node)
    ensures Dispatch(env, node, content, fuel).walk.rec == content.walk.rec
    ensures Dispatch(env, node, content, fuel).walk.offset == content.walk.offset
  {
  }

  /** The dispatch writes no fingerprint at or before the counter's value
      it starts from: component hooks touch only state and effects. */
  lemma DispatchKeepsHashAt(env: Env, node: Value, content: Composed, fuel: nat, k: int)
    requires k <= content.walk.offset && k in content.walk.rec.hash
    ensures var r := Dispatch(env, node, content, fuel);
            k in r.walk.rec.hash && r.walk.rec.hash[k] == content.walk.rec.hash[k]
  {
    if TargetOf(node).Component? && fuel > 0 {
      ComponentKeepsHashAt(env, node, content, fuel, k);
    } else if Reenters(env, node) {
      var r := Compose(Inner(env), node, content.walk, fuel);
      DispatchOnReentry(env, node, content, fuel);
      ComposeFrame(Inner(env), node, content.walk, fuel);
      WindowFrameAt(content.walk.rec, r.walk.rec, content.walk.offset, r.walk.offset, k);
    } else {
      DispatchKeepsRecord(env, node, content, fuel);
    }
  }

  lemma ComponentKeepsHashAt(env: Env, node: Value, content: Composed, fuel: nat, k: int)
    requires TargetOf(node).Component? && fuel > 0
    requires k <= content.walk.offset && k in content.walk.rec.hash
    ensures var h := Dispatch(env, node, content, fuel).walk.rec.hash;
            k in h && h[k] == content.walk.rec.hash[k]
  {
    DispatchIsExpand(env, node, content, fuel);
    ExpandKeepsHashAt(env, TargetOf(node).id, node, content.walk, fuel - 1, k);
  }

  lemma ExpandKeepsHashAt(env: Env, id: nat, node: Value, w: Walk, fuel: nat, k: int)
    requires k <= w.offset && k in w.rec.hash
    ensures k in Expand(env, id, node, w, fuel).walk.rec.hash
    ensures Expand(env, id, node, w, fuel).walk.rec.hash[k] == w.rec.hash[k]
  {
    ExpandUnfold(env, id, node, w, fuel);
    var script := env.scripts(id);
    var hooked := RunHooks(script.hooks, w);
    RunHooksKeepsOutputs(script.hooks, w);
    var out := script.view(ComponentProps(node), hooked.0);
    ComposeFrame(env, out, hooked.1, fuel);
    WindowFrameAt(hooked.1.rec, Compose(env, out, hooked.1, fuel).walk.rec, hooked.1.offset,
                  Compose(env, out, hooked.1, fuel).walk.offset, k);
  }

  lemma MissStoresHashAndResult(env: Env, node: Value, w: Walk, fuel: nat)
    requires IsNode(node)
    requires !CacheHit(w.rec, w.offset + 1, HashOf(node, w.offset + 1))
    ensures var pos := w.offset + 1;
            var r := Compose(env, node, w, fuel);
            && pos in r.walk.rec.hash && r.walk.rec.hash[pos] == HashOf(node, pos)
            && r.walk.offset >= pos
            && r.walk.offset in r.walk.rec.rendered && r.walk.rec.rendered[r.walk.offset] == r.value
  {
    var pos := w.offset + 1;
    var mw := MissWalk(node, w);
    var c := ChildrenOf(env, node, mw, fuel);
    ComposeOnMiss(env, node, w, fuel);
    ComposeFrame(env, Member(node, "children"), mw, fuel);
    WindowFrameAt(mw.rec, c.walk.rec, pos, c.walk.offset, pos);
    DispatchKeepsHashAt(env, node, c, fuel, pos);
    var out := Dispatch(env, node, c, fuel);
    StoreKeepsHash(out.walk, out.walk.offset, out.value);
  }

  lemma StoreKeepsHash(w: Walk, at: int, v: Value)
    ensures StoreResult(w, at, v).rec.hash == w.rec.hash
  {
  }

  /** On a miss the counter ends where the node itself stands only when
      nothing below it allocated. A component may still allocate for its
      output, so for it only that direction holds; a tag handed to a
      re-entrant composer always allocates again. */
  lemma MissAllocation(env: Env, node: Value, w: Walk, fuel: nat)
    requires IsNode(node)
    requires !CacheHit(w.rec, w.offset + 1, HashOf(node, w.offset + 1))
    ensures var pos := w.offset + 1;
            var r := Compose(env, node, w, fuel);
            && (r.walk.offset == pos ==> NoAlloc(Member(node, "children")))
            && (!TargetOf(node).Component? && !Reenters(env, node) ==>
                  (r.walk.offset == pos <==> NoAlloc(Member(node, "children"))))
            && (Reenters(env, node) ==> r.walk.offset > pos)
  {
    var mw := MissWalk(node, w);
    var c := ChildrenOf(env, node, mw, fuel);
    ComposeOnMiss(env, node, w, fuel);
    ComposeFrame(env, Member(node, "children"), mw, fuel);
    NoAllocExactly(env, Member(node, "children"), mw, fuel);
    if Reenters(env, node) {
      DispatchOnReentry(env, node, c, fuel);
    } else if !TargetOf(node).Component? {
      DispatchKeepsRecord(env, node, c, fuel);
    }
  }

  /** The result of a node is cached at the counter's value after its
      subtree, which is the position of its last descendant. For a node
      whose only child is a childless intrinsic leaf, the leaf's position
      ends up holding the leaf's own fingerprint next to the parent's
      result: a later pass that reaches the same leaf at that position
      finds a matching fingerprint and, by `CacheHitShortCircuits`, returns
      the parent's result for the leaf. (Under a re-entrant composer a
      tag's result lands further on, past its second composition.) */
  lemma ParentResultCachedAtLastLeaf(env: Env, node: Value, leaf: Value, w: Walk, fuel: nat)
    requires IsNode(node) && !TargetOf(node).Component? && !env.reenter
    requires Member(node, "children") == Arr([leaf])
    requires IsNode(leaf) && !TargetOf(leaf).Component? && NoAlloc(Member(leaf, "children"))
    requires !CacheHit(w.rec, w.offset + 1, HashOf(node, w.offset + 1))
    requires !CacheHit(w.rec, w.offset + 2, HashOf(leaf, w.offset + 2))
    ensures var q := w.offset + 2;
            var r := Compose(env, node, w, fuel);
            && r.walk.offset == q
            && q in r.walk.rec.hash && r.walk.rec.hash[q] == HashOf(leaf, q)
            && q in r.walk.rec.rendered && r.walk.rec.rendered[q] == r.value
  {
    var c := ChildrenOf(env, node, MissWalk(node, w), fuel);
    SingleLeafChild(env, node, leaf, w, fuel);
    ComposeOnMiss(env, node, w, fuel);
    DispatchKeepsRecord(env, node, c, fuel);
  }

  /** The children of such a node: the leaf takes the next position, keeps
      its fingerprint there and allocates nothing more. */
  lemma SingleLeafChild(env: Env, node: Value, leaf: Value, w: Walk, fuel: nat)
    requires Member(node, "children") == Arr([leaf])
    requires IsNode(leaf) && !TargetOf(leaf).Component? && !env.reenter && NoAlloc(Member(leaf, "children"))
    requires !CacheHit(w.rec, w.offset + 2, HashOf(leaf, w.offset + 2))
    ensures var q := w.offset + 2;
            var c := ChildrenOf(env, node, MissWalk(node, w), fuel);
            c.walk.offset == q && q in c.walk.rec.hash && c.walk.rec.hash[q] == HashOf(leaf, q)
  {
    var mw := MissWalk(node, w);
    assert !CacheHit(mw.rec, mw.offset + 1, HashOf(leaf, mw.offset + 1));
    var lw := Compose(env, leaf, mw, fuel);
    MissStoresHashAndResult(env, leaf, mw, fuel);
    MissAllocation(env, leaf, mw, fuel);
    ArrayMapsElements(env, [leaf], mw, fuel);
    EmptyArrayIsFree(env, lw.walk, fuel);
    assert [leaf][1..] == [];
  }

  /** A component whose node has no children (`composable(Comp, props)`)
      runs its hooks at its own position, with both hook indices freshly
      reset, so its first `useState` and `useEffect` use slot 1. */
  lemma ComponentHooksFromSlotOne(env: Env, node: Value, w: Walk, fuel: nat)
    requires IsNode(node) && TargetOf(node).Component? && fuel > 0
    requires Member(node, "children") == Arr([])
    requires !CacheHit(w.rec, w.offset + 1, HashOf(node, w.offset + 1))
    ensures var mw := MissWalk(node, w);
            var script := env.scripts(TargetOf(node).id);
            var hooked := RunHooks(script.hooks, mw);
            var o := Compose(env, script.view(ComponentProps(node), hooked.0), hooked.1, fuel - 1);
            var r := Compose(env, node, w, fuel);
            && mw.offset == w.offset + 1 && mw.stateIndex == 0 && mw.effectIndex == 0
            && r.value == o.value && r.walk.offset == o.walk.offset && r.walk.calls == o.walk.calls
  {
    var mw := MissWalk(node, w);
    EmptyArrayIsFree(env, mw, fuel);
    assert ChildrenOf(env, node, mw, fuel).walk == mw;
    ComponentComposesOutput(env, node, w, fuel);
  }

  /** On a miss at a node whose children allocate, the entry cached at the
      node's own position is left as it was: the result goes further on. */
  lemma MissLeavesOwnEntry(env: Env, node: Value, w: Walk, fuel: nat)
    requires IsNode(node)
    requires !NoAlloc(Member(node, "children"))
    requires !CacheHit(w.rec, w.offset + 1, HashOf(node, w.offset + 1))
    ensures var pos := w.offset + 1;
            var r := Compose(env, node, w, fuel);
            && r.walk.offset > pos
            && (pos in r.walk.rec.rendered <==> pos in w.rec.rendered)
            && (pos in w.rec.rendered ==> r.walk.rec.rendered[pos] == w.rec.rendered[pos])
  {
    var pos := w.offset + 1;
    var mw := MissWalk(node, w);
    var c := ChildrenOf(env, node, mw, fuel);
    var out := Dispatch(env, node, c, fuel);
    ComposeOnMiss(env, node, w, fuel);
    MissAllocation(env, node, w, fuel);
    NoAllocExactly(env, Member(node, "children"), mw, fuel);
    ComposeFrame(env, Member(node, "children"), mw, fuel);
    WindowFrameAt(mw.rec, c.walk.rec, pos, c.walk.offset, pos);
    DispatchFrame(env, node, c, fuel);
    WindowFrameAt(c.walk.rec, out.walk.rec, c.walk.offset - 1, out.walk.offset, pos);
  }
}

=== FILE: compose_state.dfy ===
/** State slots across a whole composition walk: nothing in `compose`
    (src/jiffy.js:64-124) overwrites a truthy `useState` value. The hash
    and result writes touch other fields, and the hooks a component runs
    reinitialise only falsy slots (lines 278-280). */
module CompositionState {
  import opened Values
  import opened Hashing
  import opened Nodes
  import opened Records
  import opened Hooks
  import opened Composition
  import opened CompositionLaws

  lemma {:induction false} ComposeKeepsTruthySlot(env: Env, v: Value, w: Walk, fuel: nat, p: int, i: nat)
    requires Truthy(StateSlot(w.rec, p, i))
    ensures StateSlot(Compose(env, v, w, fuel).walk.rec, p, i) == StateSlot(w.rec, p, i)
    decreases fuel, env.reenter, v, 3
  {
    if v.Arr? {
      ComposeAllKeepsTruthySlot(env, v.items, w, fuel, p, i);
    } else if !IsInvalidSubject(v) && !IsRaw(v) {
      ComposeNodeKeepsTruthySlot(env, v, Enter(w), fuel, p, i);
    }
  }

  lemma {:induction false} ComposeNodeKeepsTruthySlot(env: Env, node: Value, w: Walk, fuel: nat, p: int, i: nat)
    requires Truthy(StateSlot(w.rec, p, i))
    ensures StateSlot(ComposeNode(env, node, w, fuel).walk.rec, p, i) == StateSlot(w.rec, p, i)
    decreases fuel, env.reenter, node, 2
  {
    var pos := w.offset;
    var key := HashOf(node, pos);
    if !CacheHit(w.rec, pos, key) {
      var w2 := w.(rec := w.rec.(hash := w.rec.hash[pos := key]));
      assert StateSlot(w2.rec, p, i) == StateSlot(w.rec, p, i);
      var content := ComposeChildren(env, node, w2, fuel);
      ComposeChildrenKeepsTruthySlot(env, node, w2, fuel, p, i);
      var out := Dispatch(env, node, content, fuel);
      DispatchKeepsTruthySlot(env, node, content, fuel, p, i);
      var stored := StoreResult(out.walk, out.walk.offset, out.value);
      assert stored.rec.state == out.walk.rec.state;
    }
  }

  lemma {:induction false} ComposeChildrenKeepsTruthySlot(env: Env, node: Value, w: Walk, fuel: nat, p: int, i: nat)
    requires Truthy(StateSlot(w.rec, p, i))
    ensures StateSlot(ComposeChildren(env, node, w, fuel).walk.rec, p, i) == StateSlot(w.rec, p, i)
    decreases fuel, env.reenter, node, 1
  {
    match node
    case Obj(fs) => {
      match IndexOf(fs, "children")
      case Some(k) => ComposeKeepsTruthySlot(env, fs[k].1, w, fuel, p, i);
      case None =>
    }
    case _ =>
  }

  lemma {:induction false} DispatchKeepsTruthySlot(env: Env, node: Value, content: Composed, fuel: nat, p: int, i: nat)
    requires Truthy(StateSlot(content.walk.rec, p, i))
    ensures StateSlot(Dispatch(env, node, content, fuel).walk.rec, p, i) == StateSlot(content.walk.rec, p, i)
    decreases fuel, env.reenter, node, 1
  {
    if TargetOf(node).Component? && fuel > 0 {
      ComponentKeepsTruthySlot(env, node, content, fuel, p, i);
    } else if Reenters(env, node) {
      ReentryKeepsTruthySlot(env, node, content, fuel, p, i);
    } else {
      DispatchKeepsRecord(env, node, content, fuel);
    }
  }

  lemma {:induction false} ReentryKeepsTruthySlot(env: Env, node: Value, content: Composed, fuel: nat, p: int, i: nat)
    requires Reenters(env, node)
    requires Truthy(StateSlot(content.walk.rec, p, i))
    ensures StateSlot(Dispatch(env, node, content, fuel).walk.rec, p, i) == StateSlot(content.walk.rec, p, i)
    decreases fuel, env.reenter, node, 0
  {
    DispatchOnReentry(env, node, content, fuel);
    ComposeKeepsTruthySlot(Inner(env), node, content.walk, fuel, p, i);
  }

  lemma {:induction false} ComponentKeepsTruthySlot(env: Env, node: Value, content: Composed, fuel: nat, p: int, i: nat)
    requires TargetOf(node).Component? && fuel > 0
    requires Truthy(StateSlot(content.walk.rec, p, i))
    ensures StateSlot(Dispatch(env, node, content, fuel).walk.rec, p, i) == StateSlot(content.walk.rec, p, i)
    decreases fuel, env.reenter, node, 0
  {
    var e := Expand(env, TargetOf(node).id, node, content.walk, fuel - 1);
    DispatchIsExpand(env, node, content, fuel);
    ExpandKeepsTruthySlot(env, TargetOf(node).id, node, content.walk, fuel - 1, p, i);
    assert Dispatch(env, node, content, fuel).walk.rec == e.walk.rec;
  }

  lemma {:induction false} ExpandKeepsTruthySlot(env: Env, id: nat, node: Value, w: Walk, fuel: nat, p: int, i: nat)
    requires Truthy(StateSlot(w.rec, p, i))
    ensures StateSlot(Expand(env, id, node, w, fuel).walk.rec, p, i) == StateSlot(w.rec, p, i)
    decreases fuel + 1, env.reenter, node, -1
  {
    var script := env.scripts(id);
    var hooked := RunHooks(script.hooks, w);
    RunHooksKeepsTruthySlot(script.hooks, w, p, i);
    ComposeKeepsTruthySlot(env, script.view(ComponentProps(node), hooked.0), hooked.1, fuel, p, i);
  }

  lemma {:induction false} ComposeAllKeepsTruthySlot(env: Env, items: seq<Value>, w: Walk, fuel: nat, p: int, i: nat)
    requires Truthy(StateSlot(w.rec, p, i))
    ensures StateSlot(ComposeAll(env, items, w, fuel).walk.rec, p, i) == StateSlot(w.rec, p, i)
    decreases fuel, env.reenter, items, 4
  {
    if items != [] {
      var first := Compose(env, items[0], w, fuel);
      ComposeKeepsTruthySlot(env, items[0], w, fuel, p, i);
      ComposeAllKeepsTruthySlot(env, items[1..], first.walk, fuel, p, i);
    }
  }

  /** Once a `useState` call leaves a truthy value in its slot, a later
      call at the same position and slot, after any composition in
      between, returns the same value whatever its default. */
  lemma StatePersists(w: Walk, initial: Value, env: Env, between: Value, fuel: nat, w': Walk, initial': Value)
    requires Truthy(StateSlot(UseState(w, initial).1.rec, w.offset, w.stateIndex + 1))
    requires w'.rec == Compose(env, between, UseState(w, initial).1, fuel).walk.rec
    requires w'.offset == w.offset && w'.stateIndex == w.stateIndex
    ensures UseState(w', initial').0 == UseState(w, initial).0
  {
    ComposeKeepsTruthySlot(env, between, UseState(w, initial).1, fuel, w.offset, w.stateIndex + 1);
  }
}

=== FILE: hashing.dfy ===
/** The cache fingerprint of src/jiffy.js:90,
    `${pos}:${md5(JSON.stringify([node, pos]))}`.

    md5 is taken to be collision-free, so two fingerprints are equal exactly
    when their positions and their JSON texts are; the model keeps the JSON
    as a tree instead of its text. */
module Hashing {
  import opened Values

  datatype Json =
    | JNull
    | JBool(b: bool)
    | JNum(n: int)
    | JStr(s: string)
    | JArr(items: seq<Json>)
    | JObj(fields: seq<(string, Json)>)

  datatype Key = Key(pos: int, json: Json)

  /** Keep the present entries, in order. */
  function Present<T>(s: seq<Option<T>>): (r: seq<T>)
    ensures |r| <= |s|
    ensures (forall i :: 0 <= i < |s| ==> s[i].Some?) ==>
              |r| == |s| && forall i :: 0 <= i < |s| ==> r[i] == s[i].value
  {
    if s == [] then []
    else if s[0].Some? then [s[0].value] + Present(s[1..])
    else Present(s[1..])
  }

  /** `JSON.stringify` as a tree: `undefined` and functions have no JSON
      (None at the top), become `null` inside arrays and are dropped from
      objects. */
  function Serialise(v: Value): (r: Option<Json>)
    ensures r.None? <==> v.Undef? || v.Fun?
    ensures v.Arr? ==> r.value.JArr? && |r.value.items| == |v.items|
    ensures v.Obj? ==> r.value.JObj? && |r.value.fields| <= |v.fields|
    decreases v, 1
  {
    match v
    case Undef => None
    case Fun(_) => None
    case Null => Some(JNull)
    case Bool(b) => Some(JBool(b))
    case Num(n) => Some(JNum(n))
    case Str(s) => Some(JStr(s))
    case Arr(items) =>
      Some(JArr(seq(|items|, i requires 0 <= i < |items| =>
                      match Serialise(items[i]) case Some(j) => j case None => JNull)))
    case Obj(fs) => Some(JObj(Present(SerialiseFields(fs))))
  }

  /** Each field of an object with its JSON, or None where the value has
      none and the field is dropped. */
  function SerialiseFields(fs: seq<(string, Value)>): (r: seq<Option<(string, Json)>>)
    ensures |r| == |fs|
    decreases Obj(fs), 0
  {
    seq(|fs|, i requires 0 <= i < |fs| =>
          match Serialise(fs[i].1) case Some(j) => Some((fs[i].0, j)) case None => None)
  }

  /** No `undefined` and no function anywhere inside `v`: the values JSON
      represents without loss. */
  predicate JsonExact(v: Value) {
    match v
    case Undef => false
    case Fun(_) => false
    case Arr(items) => forall i :: 0 <= i < |items| ==> JsonExact(items[i])
    case Obj(fs) => forall i :: 0 <= i < |fs| ==> JsonExact(fs[i].1)
    case _ => true
  }

  /** Serialisation loses nothing on values without `undefined` or functions. */
  lemma {:induction false} SerialiseInjective(a: Value, b: Value)
    requires JsonExact(a) && JsonExact(b)
    requires Serialise(a) == Serialise(b)
    ensures a == b
  {
    match a
    case Arr(xs) =>
      var ys := b.items;
      forall i | 0 <= i < |xs| ensures xs[i] == ys[i] {
        assert Serialise(xs[i]).Some? && Serialise(ys[i]).Some?;
        assert Serialise(a).value.items[i] == Serialise(b).value.items[i];
        SerialiseInjective(xs[i], ys[i]);
      }
    case Obj(fs) =>
      var gs := b.fields;
      var sa, sb := SerialiseFields(fs), SerialiseFields(gs);
      assert forall i :: 0 <= i < |fs| ==> Serialise(fs[i].1).Some?;
      assert forall i :: 0 <= i < |gs| ==> Serialise(gs[i].1).Some?;
      assert Present(sa) == Present(sb);
      assert |fs| == |gs|;
      forall i | 0 <= i < |fs| ensures fs[i] == gs[i] {
        assert Present(sa)[i] == Present(sb)[i];
        SerialiseInjective(fs[i].1, gs[i].1);
      }
    case _ =>
  }

  /** The fingerprint of `node` at composition position `pos`:
      the JSON of the pair `[node, pos]`, tagged with `pos`. */
  function HashOf(node: Value, pos: int): (r: Key)
    ensures r.pos == pos
  {
    Key(pos, Serialise(Arr([node, Num(pos)])).value)
  }

  /** Different positions never share a fingerprint, and at one position two
      lossless subjects share it only when they are equal. */
  lemma HashOfSeparates(a: Value, b: Value, p: int, q: int)
    requires JsonExact(a) && JsonExact(b)
    requires HashOf(a, p) == HashOf(b, q)
    ensures p == q && a == b
  {
    var ja := Serialise(Arr([a, Num(p)])).value;
    var jb := Serialise(Arr([b, Num(q)])).value;
    assert ja.items[0] == Serialise(a).value;
    assert jb.items[0] == Serialise(b).value;
    SerialiseInjective(a, b);
  }
}

=== FILE: hooks.dfy ===
/** useState and useEffect (src/jiffy.js:252-297): slot-addressed updates of
    the current target's record at the composition position the counter
    holds when the hook is called. */
module Hooks {
  import opened Values
  import opened Records

  datatype Hook = StateHook(initial: Value) | EffectHook(fn: Value)

  /** `state[pos][idx]`, or `undefined` where nothing is stored. */
  function StateSlot(rec: Record, pos: int, idx: nat): Value {
    if pos in rec.state && idx in rec.state[pos] then rec.state[pos][idx] else Undef
  }

  /** `useState(defaultValue = null)`: a missing default is `null`. */
  function DefaultOf(initial: Value): Value {
    if initial.Undef? then Null else initial
  }

  /** useState (lines 267-297). The slot index is bumped first, so the
      first call after a reset uses slot 1. A slot whose stored value is
      falsy (missing, `0`, `""`, `false`, `null`) is (re)initialised to the
      default; the caller gets a deep clone of what is stored. */
  function UseState(w: Walk, initial: Value): (r: (Value, Walk))
    ensures r.1.stateIndex == w.stateIndex + 1
    ensures r.1 == w.(stateIndex := r.1.stateIndex, rec := r.1.rec)
    ensures r.1.rec == w.rec.(state := r.1.rec.state)
    ensures StateSlot(r.1.rec, w.offset, w.stateIndex + 1) ==
              (if Truthy(StateSlot(w.rec, w.offset, w.stateIndex + 1))
               then StateSlot(w.rec, w.offset, w.stateIndex + 1) else DefaultOf(initial))
    ensures r.0 == CloneDeep(StateSlot(r.1.rec, w.offset, w.stateIndex + 1))
    ensures forall p, i: nat :: (p, i) != (w.offset, w.stateIndex + 1) ==> StateSlot(r.1.rec, p, i) == StateSlot(w.rec, p, i)
  {
    var csi := w.stateIndex + 1;
    var rco := w.offset;
    var slots: map<nat, Value> := if rco in w.rec.state then w.rec.state[rco] else map[];
    var stored := if csi in slots && Truthy(slots[csi]) then slots[csi] else DefaultOf(initial);
    var rec := w.rec.(state := w.rec.state[rco := slots[csi := stored]]);
    (CloneDeep(stored), w.(stateIndex := csi, rec := rec))
  }

  /** useState writes the record only at the current position. */
  lemma UseStateFrame(w: Walk, initial: Value)
    ensures WindowFrame(w.rec, UseState(w, initial).1.rec, w.offset - 1, w.offset)
  {
    var r := UseState(w, initial).1.rec;
    assert r == w.rec.(state := w.rec.state[w.offset := r.state[w.offset]]);
  }

  /** A truthy value in a state slot survives a `useState` call: the call
      at that slot keeps it, and a call at any other slot leaves it alone. */
  lemma UseStateKeepsTruthySlot(w: Walk, initial: Value, p: int, i: nat)
    requires Truthy(StateSlot(w.rec, p, i))
    ensures StateSlot(UseState(w, initial).1.rec, p, i) == StateSlot(w.rec, p, i)
  {
  }

  /** A falsy stored value does not survive: the next call returns its own
      default instead. */
  lemma FalsyStateResets(w: Walk, initial: Value)
    requires !Truthy(StateSlot(w.rec, w.offset, w.stateIndex + 1))
    ensures UseState(w, initial).0 == CloneDeep(DefaultOf(initial))
  {
  }

  /** The mount list at `pos`, or nothing where no effect record exists. */
  function MountAt(rec: Record, pos: int): seq<Value> {
    if pos in rec.effects then rec.effects[pos].mount else []
  }

  /** useEffect (lines 252-265). The effect slot index is bumped first.
      `hasEffected` is one flag per position, so only the first call ever
      made at a position registers its function; every later call at that
      position stores `null` in its slot. */
  function UseEffect(w: Walk, fn: Value): (r: Walk)
    ensures r.effectIndex == w.effectIndex + 1
    ensures r == w.(effectIndex := r.effectIndex, rec := r.rec)
    ensures r.rec == w.rec.(effects := r.rec.effects, effected := r.rec.effected)
    ensures r.rec.effected == w.rec.effected + {w.offset}
    ensures w.offset in r.rec.effects
    ensures r.rec.effects[w.offset].unmount ==
              (if w.offset in w.rec.effects then w.rec.effects[w.offset].unmount else [])
    ensures MountAt(r.rec, w.offset) ==
              SetSlot(MountAt(w.rec, w.offset), w.effectIndex + 1,
                      if w.offset in w.rec.effected then Null else fn)
  {
    var ei := w.effectIndex + 1;
    var rco := w.offset;
    var eff := if rco in w.rec.effects then w.rec.effects[rco] else Effects([], []);
    var registered := if rco !in w.rec.effected then fn else Null;
    var eff' := eff.(mount := SetSlot(eff.mount, ei, registered));
    var rec := w.rec.(effects := w.rec.effects[rco := eff'], effected := w.rec.effected + {rco});
    w.(effectIndex := ei, rec := rec)
  }

  /** useEffect writes the record only at the current position. */
  lemma UseEffectFrame(w: Walk, fn: Value)
    ensures WindowFrame(w.rec, UseEffect(w, fn).rec, w.offset - 1, w.offset)
  {
    var r := UseEffect(w, fn).rec;
    assert r == w.rec.(effects := w.rec.effects[w.offset := r.effects[w.offset]], effected := w.rec.effected + {w.offset});
  }

  /** Number of functions in a mount list: the callbacks a pass would fire. */
  function LiveCount(mount: seq<Value>): (r: nat)
    ensures r <= |mount|
  {
    if mount == [] then 0 else (if mount[0].Fun? then 1 else 0) + LiveCount(mount[1..])
  }

  function LiveAt(rec: Record, pos: int): nat {
    LiveCount(MountAt(rec, pos))
  }

  lemma {:induction false} LiveCountConcat(a: seq<Value>, b: seq<Value>)
    ensures LiveCount(a + b) == LiveCount(a) + LiveCount(b)
    decreases |a|
  {
    if a == [] {
      assert a + b == b;
    } else {
      assert (a + b)[1..] == a[1..] + b;
      LiveCountConcat(a[1..], b);
    }
  }

  lemma {:induction false} LiveCountUpdate(a: seq<Value>, i: nat, v: Value)
    requires i < |a|
    ensures LiveCount(a[i := v]) + (if a[i].Fun? then 1 else 0) == LiveCount(a) + (if v.Fun? then 1 else 0)
    decreases i
  {
    if i > 0 {
      assert a[i := v][1..] == a[1..][i - 1 := v];
      LiveCountUpdate(a[1..], i - 1, v);
    }
  }

  lemma {:induction false} LiveCountHoles(n: nat)
    ensures LiveCount(seq(n, _ => Undef)) == 0
  {
    if n > 0 {
      assert seq(n, _ => Undef)[1..] == seq(n - 1, _ => Undef);
      LiveCountHoles(n - 1);
    }
  }

  /** Writing one slot adds at most the one function written. */
  lemma LiveCountSetSlot(a: seq<Value>, i: nat, v: Value)
    ensures LiveCount(SetSlot(a, i, v)) <= LiveCount(a) + (if v.Fun? then 1 else 0)
  {
    if i < |a| {
      LiveCountUpdate(a, i, v);
    } else {
      var holes := seq(i - |a|, _ => Undef);
      LiveCountConcat(a + holes, [v]);
      LiveCountConcat(a, holes);
      LiveCountHoles(i - |a|);
      assert [v][1..] == [];
    }
  }

  /** The effect-once invariant relative to the positions `e0` already
      flagged when the pass began: a position flagged before the pass holds
      no live callback, and any other position holds at most one, and only
      once it is flagged. */
  ghost predicate EffectOnce(e0: set<int>, rec: Record) {
    && e0 <= rec.effected
    && forall p :: LiveAt(rec, p) <= (if p in rec.effected && p !in e0 then 1 else 0)
  }

  lemma UseEffectKeepsEffectOnce(e0: set<int>, w: Walk, fn: Value)
    requires EffectOnce(e0, w.rec)
    ensures EffectOnce(e0, UseEffect(w, fn).rec)
  {
    var r := UseEffect(w, fn);
    var v := if w.offset in w.rec.effected then Null else fn;
    LiveCountSetSlot(MountAt(w.rec, w.offset), w.effectIndex + 1, v);
    forall p ensures LiveAt(r.rec, p) <= (if p in r.rec.effected && p !in e0 then 1 else 0) {
      if p != w.offset {
        assert MountAt(r.rec, p) == MountAt(w.rec, p);
      }
    }
  }

  /** Run a component's hook calls in order; the values the `useState`
      calls returned are handed to the component's view. */
  function RunHooks(hooks: seq<Hook>, w: Walk): (r: (seq<Value>, Walk))
    ensures r.1.offset == w.offset && r.1.calls == w.calls && r.1.outOfFuel == w.outOfFuel
    ensures |r.0| == |StateHooks(hooks)|
    ensures r.1.stateIndex == w.stateIndex + |StateHooks(hooks)|
  {
    if hooks == [] then ([], w)
    else
      match hooks[0]
      case StateHook(initial) =>
        var (v, w1) := UseState(w, initial);
        var (vs, w2) := RunHooks(hooks[1..], w1);
        ([v] + vs, w2)
      case EffectHook(fn) =>
        var w1 := UseEffect(w, fn);
        var (vs, w2) := RunHooks(hooks[1..], w1);
        (vs, w2)
  }

  /** A truthy value in a state slot survives any sequence of hook calls:
      `useEffect` does not touch state and `useState` keeps truthy values. */
  lemma {:induction false} RunHooksKeepsTruthySlot(hooks: seq<Hook>, w: Walk, p: int, i: nat)
    requires Truthy(StateSlot(w.rec, p, i))
    ensures StateSlot(RunHooks(hooks, w).1.rec, p, i) == StateSlot(w.rec, p, i)
  {
    if hooks != [] {
      match hooks[0]
      case StateHook(initial) =>
        UseStateKeepsTruthySlot(w, initial, p, i);
        RunHooksKeepsTruthySlot(hooks[1..], UseState(w, initial).1, p, i);
      case EffectHook(fn) =>
        RunHooksKeepsTruthySlot(hooks[1..], UseEffect(w, fn), p, i);
    }
  }

  /** Hooks never write fingerprints or cached results. */
  lemma {:induction false} RunHooksKeepsOutputs(hooks: seq<Hook>, w: Walk)
    ensures RunHooks(hooks, w).1.rec.hash == w.rec.hash
    ensures RunHooks(hooks, w).1.rec.rendered == w.rec.rendered
  {
    if hooks != [] {
      var w1 := match hooks[0]
        case StateHook(initial) => UseState(w, initial).1
        case EffectHook(fn) => UseEffect(w, fn);
      RunHooksKeepsOutputs(hooks[1..], w1);
    }
  }

  /** A component's hook calls touch its record only at the component's
      own position. */
  lemma {:induction false} RunHooksFrame(hooks: seq<Hook>, w: Walk)
    ensures WindowFrame(w.rec, RunHooks(hooks, w).1.rec, w.offset - 1, w.offset)
  {
    if hooks == [] {
      WindowFrameRefl(w.rec, w.offset - 1, w.offset);
    } else {
      var w1 := match hooks[0]
        case StateHook(initial) => UseState(w, initial).1
        case EffectHook(fn) => UseEffect(w, fn);
      match hooks[0] {
        case StateHook(initial) => UseStateFrame(w, initial);
        case EffectHook(fn) => UseEffectFrame(w, fn);
      }
      var w2 := RunHooks(hooks[1..], w1).1;
      assert RunHooks(hooks, w).1 == w2;
      RunHooksFrame(hooks[1..], w1);
      WindowFrameTrans(w.rec, w1.rec, w2.rec, w.offset - 1, w.offset - 1, w.offset, w.offset - 1, w.offset, w.offset);
    }
  }

  /** The `useState` calls of a hook list, in order. */
  function StateHooks(hooks: seq<Hook>): seq<Hook> {
    if hooks == [] then []
    else if hooks[0].StateHook? then [hooks[0]] + StateHooks(hooks[1..])
    else StateHooks(hooks[1..])
  }

  lemma {:induction false} RunHooksKeepsEffectOnce(e0: set<int>, hooks: seq<Hook>, w: Walk)
    requires EffectOnce(e0, w.rec)
    ensures EffectOnce(e0, RunHooks(hooks, w).1.rec)
    decreases |hooks|
  {
    if hooks != [] {
      match hooks[0]
      case StateHook(initial) =>
        var w1 := UseState(w, initial).1;
        assert forall p :: MountAt(w1.rec, p) == MountAt(w.rec, p);
        RunHooksKeepsEffectOnce(e0, hooks[1..], w1);
      case EffectHook(fn) =>
        UseEffectKeepsEffectOnce(e0, w, fn);
        RunHooksKeepsEffectOnce(e0, hooks[1..], UseEffect(w, fn));
    }
  }

  datatype JsError = ReferenceError(name: string) | TypeError(reason: string)

  /** What a setter call does: it either stores the value and asks for a
      re-render of its target, or throws. */
  datatype SetOutcome = Updated(store: Store, rerender: string) | Thrown(error: JsError)

  /** The setter returned by useState for target `tgt`, position `rco`,
      slot `csi` (lines 283-296). For an object-typed value (including
      `null` and arrays) the condition reads the undeclared `globalState`
      and throws; otherwise the slot is replaced and a re-render of `tgt`
      is requested. */
  function SetState(store: Store, tgt: string, rco: int, csi: nat, newVal: Value): (r: SetOutcome)
    ensures IsObjectType(newVal) <==> r == Thrown(ReferenceError("globalState"))
    ensures r.Updated? <==> !IsObjectType(newVal) && tgt in store && rco in store[tgt].state
    ensures r.Updated? ==> r.rerender == tgt && r.store.Keys == store.Keys
    ensures r.Updated? ==> StateSlot(r.store[tgt], rco, csi) == newVal
    ensures r.Updated? ==> forall p, i: nat :: (p, i) != (rco, csi) ==> StateSlot(r.store[tgt], p, i) == StateSlot(store[tgt], p, i)
    ensures r.Updated? ==> r.store[tgt] == store[tgt].(state := r.store[tgt].state)
    ensures r.Updated? ==> forall t :: t in store && t != tgt ==> r.store[t] == store[t]
  {
    if IsObjectType(newVal) then Thrown(ReferenceError("globalState"))
    else if tgt !in store then Thrown(TypeError("cannot read properties of undefined (reading 'state')"))
    else if rco !in store[tgt].state then Thrown(TypeError("cannot set properties of undefined"))
    else
      var rec := store[tgt];
      var slots: map<nat, Value> := rec.state[rco];
      var rec' := rec.(state := rec.state[rco := slots[csi := newVal]]);
      Updated(store[tgt := rec'], tgt)
  }

  /** After a setter stores a non-object value, the next `useState` at that
      position and slot returns it when it is truthy and the call's own
      default when it is falsy. */
  lemma SetThenUseState(store: Store, tgt: string, rco: int, csi: nat, newVal: Value, w: Walk, initial: Value)
    requires SetState(store, tgt, rco, csi, newVal).Updated?
    requires w.rec == SetState(store, tgt, rco, csi, newVal).store[tgt]
    requires w.offset == rco && w.stateIndex + 1 == csi
    ensures UseState(w, initial).0 == CloneDeep(if Truthy(newVal) then newVal else DefaultOf(initial))
  {
  }
}

=== FILE: nodes.dfy ===
/** Composable nodes (src/jiffy.js:60-62) and the views of a node the
    walker takes: validity, the kind of its target, the argument a
    component function receives, and the fact that a node's fingerprint
    cannot see which function its target is. */
module Nodes {
  import opened Values
  import opened Hashing

  /** `composable(target, props = {}, ...children)`: a record with the
      `__c` marker; a `null` or missing props bag becomes `{}`. */
  function Composable(target: Value, props: Value, children: seq<Value>): (r: Value)
    ensures IsNode(r)
    ensures Keys(r.fields) == ["target", "props", "children", "__c"]
    ensures Member(r, "target") == target
    ensures Member(r, "props") == (if props.Null? || props.Undef? then Obj([]) else props)
    ensures Member(r, "children") == Arr(children)
  {
    var fs := NodeFields(target, props, children);
    KeysAt(fs);
    assert Keys(fs) == ["target", "props", "children", "__c"];
    Obj(fs)
  }

  /** The fields of a node in the order `composable` writes them; a
      missing props object becomes `{}`. */
  function NodeFields(target: Value, props: Value, children: seq<Value>): seq<(string, Value)> {
    var p := if props.Null? || props.Undef? then Obj([]) else props;
    [("target", target), ("props", p), ("children", Arr(children)), ("__c", Bool(true))]
  }

  /** What `compose` accepts as a node: a non-raw value whose `__c` is
      truthy. Only plain objects can carry `__c` in this model. */
  predicate IsNode(v: Value) {
    v.Obj? && Truthy(Member(v, "__c"))
  }

  /** Raw subjects are passed through: `typeof` "string" or "number". */
  predicate IsRaw(v: Value) {
    v.Str? || v.Num?
  }

  /** The source's guard at line 75: `!composed || (!isRaw && !composed.__c)`. */
  predicate IsInvalidSubject(v: Value) {
    !Truthy(v) || (!IsRaw(v) && !Truthy(Member(v, "__c")))
  }

  /** A subject that passes the guard is a truthy raw value or a node. */
  lemma SubjectKinds(v: Value)
    requires !v.Arr?
    ensures !IsInvalidSubject(v) <==> (IsRaw(v) && Truthy(v)) || IsNode(v)
  {
  }

  datatype Target = Intrinsic(name: string) | Component(id: nat) | Other

  /** Dispatch on `typeof composed.target` (lines 107-120). Objects,
      arrays and `null` are the unsupported "object" case; booleans,
      numbers and `undefined` fall through every branch. Both yield no
      result, so both are `Other`. */
  function TargetOf(node: Value): (r: Target)
    ensures r.Intrinsic? <==> Member(node, "target").Str?
    ensures r.Component? <==> Member(node, "target").Fun?
    ensures r.Intrinsic? ==> r.name == Member(node, "target").s
    ensures r.Component? ==> r.id == Member(node, "target").id
  {
    match Member(node, "target")
    case Str(s) => Intrinsic(s)
    case Fun(id) => Component(id)
    case _ => Other
  }

  /** The argument a component function receives (line 115):
      `{ ...cloneDeep(composed.props), children: composed.children }`. */
  function ComponentProps(node: Value): (r: Value)
    ensures r.Obj?
    ensures Member(r, "children") == Member(node, "children")
  {
    Obj(Put(Entries(CloneDeep(Member(node, "props"))), "children", Member(node, "children")))
  }

  /** Every other prop the component sees is the one of the cloned props. */
  lemma ComponentPropsClones(node: Value, k: string)
    requires k != "children"
    ensures Member(ComponentProps(node), k) == Member(Obj(Entries(CloneDeep(Member(node, "props")))), k)
  {
  }

  /** For a node built by `composable`, a prop reaches the component as its
      clone, and `children` is the node's own children array. */
  lemma ComponentPropsOfComposable(target: Value, fs: seq<(string, Value)>, children: seq<Value>, k: string)
    requires k != "children"
    ensures Member(ComponentProps(Composable(target, Obj(fs), children)), k) == CloneDeep(Member(Obj(fs), k))
    ensures Member(ComponentProps(Composable(target, Obj(fs), children)), "children") == Arr(children)
  {
    ComponentPropsClones(Composable(target, Obj(fs), children), k);
    CloneDeepMember(fs, k);
  }

  /** JSON drops functions, so two components that differ only in their
      function share a fingerprint at every position: the cache cannot tell
      them apart. */
  lemma ComponentFunctionInvisibleToHash(a: nat, b: nat, props: Value, children: seq<Value>, pos: int)
    ensures HashOf(Composable(Fun(a), props, children), pos) == HashOf(Composable(Fun(b), props, children), pos)
  {
    var na, nb := Composable(Fun(a), props, children), Composable(Fun(b), props, children);
    ComposableFieldsAgree(a, b, props, children);
    SerialiseFieldwise(NodeFields(Fun(a), props, children), NodeFields(Fun(b), props, children));
    HashOfCongruent(na, nb, pos);
  }

  /** The two nodes' fields differ only in the target's function. */
  lemma ComposableFieldsAgree(a: nat, b: nat, props: Value, children: seq<Value>)
    ensures var fa, fb := NodeFields(Fun(a), props, children), NodeFields(Fun(b), props, children);
            && |fa| == |fb|
            && forall i :: 0 <= i < |fa| ==> fa[i].0 == fb[i].0 && Serialise(fa[i].1) == Serialise(fb[i].1)
  {
    assert Serialise(Fun(a)) == None == Serialise(Fun(b));
  }

  /** Objects whose fields agree in key and in JSON have the same JSON. */
  lemma SerialiseFieldwise(fs: seq<(string, Value)>, gs: seq<(string, Value)>)
    requires |fs| == |gs|
    requires forall i :: 0 <= i < |fs| ==> fs[i].0 == gs[i].0 && Serialise(fs[i].1) == Serialise(gs[i].1)
    ensures Serialise(Obj(fs)) == Serialise(Obj(gs))
  {
    assert SerialiseFields(fs) == SerialiseFields(gs);
  }

  /** Subjects with the same JSON have the same fingerprint. */
  lemma HashOfCongruent(na: Value, nb: Value, pos: int)
    requires Serialise(na) == Serialise(nb)
    ensures HashOf(na, pos) == HashOf(nb, pos)
  {
    var xs, ys := [na, Num(pos)], [nb, Num(pos)];
    assert Serialise(xs[0]) == Serialise(ys[0]);
    SerialiseElementwise(xs, ys);
  }

  /** Arrays whose elements agree in JSON have the same JSON. */
  lemma SerialiseElementwise(xs: seq<Value>, ys: seq<Value>)
    requires |xs| == |ys|
    requires forall i :: 0 <= i < |xs| ==> Serialise(xs[i]) == Serialise(ys[i])
    ensures Serialise(Arr(xs)) == Serialise(Arr(ys))
  {
    assert Serialise(Arr(xs)).value.items == Serialise(Arr(ys)).value.items;
  }
}

=== FILE: records.dfy ===
/** The per-target render record (src/jiffy.js:170-182) and the state of
    one composition pass: the module globals `renderComposeOffset`,
    `composableStateIndex`, `composableEffectIndex` and `renderState`. */
module Records {
  import opened Values
  import opened Hashing

  /** `effects[pos]`: the mount list is a JavaScript array indexed by effect
      slot, whose holes read as `undefined`; `unmount` collects what the
      mounted effects returned. */
  datatype Effects = Effects(mount: seq<Value>, unmount: seq<Value>)

  /** One render target's record. Position-indexed arrays are maps from
      position; `hasEffected` is only ever set to true, so it is kept as the
      set of positions where it is true. */
  datatype Record = Record(
    state: map<int, map<nat, Value>>,
    effects: map<int, Effects>,
    hash: map<int, Key>,
    rendered: map<int, Value>,
    effected: set<int>,
    inProgress: bool,
    listener: bool)

  const EmptyRecord := Record(map[], map[], map[], map[], {}, false, false)

  /** `globalRenderState`: records by render-target identifier. */
  type Store = map<string, Record>

  /** A record is created the first time its target renders (lines 170-180)
      and is never replaced afterwards. */
  function GetOrCreate(store: Store, id: string): (r: Store)
    ensures id in r
    ensures id in store ==> r == store
    ensures id !in store ==> r[id] == EmptyRecord
    ensures forall t :: t != id ==> (t in r <==> t in store)
    ensures forall t :: t != id && t in store ==> r[t] == store[t]
  {
    if id in store then store else store[id := EmptyRecord]
  }

  lemma GetOrCreateIdempotent(store: Store, id: string)
    ensures GetOrCreate(GetOrCreate(store, id), id) == GetOrCreate(store, id)
  {
  }

  /** The globals of one pass, plus two things the model records: the
      composer invocations in order, and whether a component expansion was
      cut off by the fuel bound. */
  datatype Walk = Walk(
    offset: int,
    stateIndex: nat,
    effectIndex: nat,
    rec: Record,
    calls: seq<(Value, Value)>,
    outOfFuel: bool)

  /** `a[i] = v` on a JavaScript array: writing past the end leaves holes. */
  function SetSlot(a: seq<Value>, i: nat, v: Value): (r: seq<Value>)
    ensures |r| == if i < |a| then |a| else i + 1
    ensures r[i] == v
    ensures forall j :: 0 <= j < |r| && j != i ==> r[j] == (if j < |a| then a[j] else Undef)
  {
    if i < |a| then a[i := v] else a + seq(i - |a|, _ => Undef) + [v]
  }

  /** `m` and `n` agree at every position outside the window `(lo, hi]`. */
  ghost predicate AgreeOutside<T>(m: map<int, T>, n: map<int, T>, lo: int, hi: int) {
    forall k :: k <= lo || k > hi ==> (k in m <==> k in n) && (k in m ==> m[k] == n[k])
  }

  /** `b` differs from `a` only at positions in the window `(lo, hi]`, and
      `hasEffected` flags are only ever added. */
  ghost predicate WindowFrame(a: Record, b: Record, lo: int, hi: int) {
    && AgreeOutside(a.state, b.state, lo, hi)
    && AgreeOutside(a.effects, b.effects, lo, hi)
    && AgreeOutside(a.hash, b.hash, lo, hi)
    && AgreeOutside(a.rendered, b.rendered, lo, hi)
    && a.effected <= b.effected
    && (forall k :: k in b.effected && (k <= lo || k > hi) ==> k in a.effected)
    && a.inProgress == b.inProgress
    && a.listener == b.listener
  }

  /** Outside the window, a framed change leaves every entry as it was. */
  lemma WindowFrameAt(a: Record, b: Record, lo: int, hi: int, k: int)
    requires WindowFrame(a, b, lo, hi) && (k <= lo || k > hi)
    ensures k in a.state <==> k in b.state
    ensures k in a.state ==> a.state[k] == b.state[k]
    ensures k in a.effects <==> k in b.effects
    ensures k in a.effects ==> a.effects[k] == b.effects[k]
    ensures k in a.hash <==> k in b.hash
    ensures k in a.hash ==> a.hash[k] == b.hash[k]
    ensures k in a.rendered <==> k in b.rendered
    ensures k in a.rendered ==> a.rendered[k] == b.rendered[k]
    ensures k in a.effected <==> k in b.effected
  {
  }

  lemma WindowFrameRefl(a: Record, lo: int, hi: int)
    ensures WindowFrame(a, a, lo, hi)
  {
  }

  /** Two changes inside windows that lie within `(lo, hi]` make a change
      inside `(lo, hi]`. */
  lemma WindowFrameTrans(a: Record, b: Record, c: Record, lo: int, l1: int, h1: int, l2: int, h2: int, hi: int)
    requires WindowFrame(a, b, l1, h1) && WindowFrame(b, c, l2, h2)
    requires lo <= l1 && lo <= l2 && h1 <= hi && h2 <= hi
    ensures WindowFrame(a, c, lo, hi)
  {
  }
}

=== FILE: render.dfy ===
/** One pass of `render` (src/jiffy.js:161-217), read sequentially: the
    record is created on first use, the mount lists are cleared, the
    subject is composed from a counter reset to -1, the renderer turns the
    result into the output, and the registered effects fire in position
    and slot order. `renderString` (lines 241-250) is the pass with
    `composeString` as the composer, which composes every tag a second
    time, and the string sink. */
module Render {
  import opened Values
  import opened Hashing
  import opened Nodes
  import opened Records
  import opened Hooks
  import opened Composition
  import opened CompositionLaws
  import opened CompositionEffects
  import opened CompositionState
  import opened StringBackend

  // ---------------------------------------------------------------------
  // Effects around the composition (lines 197-212)

  /** Lines 197-200: every effect record's mount list is emptied; the
      unmount lists and the flags stay. */
  function ClearMounts(rec: Record): (r: Record)
    ensures r == rec.(effects := r.effects)
    ensures r.effects.Keys == rec.effects.Keys
    ensures forall p :: p in r.effects ==> r.effects[p].unmount == rec.effects[p].unmount
    ensures forall p :: LiveAt(r, p) == 0
  {
    var r := rec.(effects := map p | p in rec.effects :: rec.effects[p].(mount := []));
    assert forall p :: MountAt(r, p) == [];
    r
  }

  /** After the clear, the effect-once invariant holds relative to the
      positions flagged so far. */
  lemma ClearedEffectOnce(rec: Record)
    ensures EffectOnce(rec.effected, ClearMounts(rec))
  {
  }

  /** The functions of a mount list, in slot order; holes, `null`s and
      other values are skipped (line 208). */
  function LiveFns(mount: seq<Value>): (r: seq<Value>)
    ensures |r| == LiveCount(mount)
    ensures forall f :: f in r <==> f in mount && f.Fun?
  {
    if mount == [] then []
    else (if mount[0].Fun? then [mount[0]] else []) + LiveFns(mount[1..])
  }

  /** What the fired functions return, in order; `ret` stands for what
      calling each function yields. */
  function Returns(fns: seq<Value>, ret: nat -> Value): (r: seq<Value>)
    ensures |r| == |fns|
  {
    seq(|fns|, i requires 0 <= i < |fns| => if fns[i].Fun? then ret(fns[i].id) else Undef)
  }

  /** Lines 206-211 at position `p`: each function in the mount list is
      called and its return value pushed on the unmount list. */
  function FireAt(rec: Record, p: int, ret: nat -> Value): (r: (seq<Value>, Record))
    ensures r.0 == LiveFns(MountAt(rec, p))
    ensures r.1 == rec.(effects := r.1.effects)
    ensures forall q :: MountAt(r.1, q) == MountAt(rec, q)
    ensures forall q :: q != p ==> (q in r.1.effects <==> q in rec.effects)
    ensures forall q :: q != p && q in rec.effects ==> r.1.effects[q] == rec.effects[q]
    ensures p in rec.effects ==>
              p in r.1.effects && r.1.effects[p].unmount == rec.effects[p].unmount + Returns(r.0, ret)
  {
    if p !in rec.effects then ([], rec)
    else
      var e := rec.effects[p];
      var fired := LiveFns(e.mount);
      (fired, rec.(effects := rec.effects[p := e.(unmount := e.unmount + Returns(fired, ret))]))
  }

  /** Positions `lo` to `hi - 1`, in order. Each fired function is listed
      with its position. */
  function FireRange(rec: Record, lo: int, hi: int, ret: nat -> Value): (r: (seq<(int, Value)>, Record))
    ensures r.1 == rec.(effects := r.1.effects)
    ensures forall q :: MountAt(r.1, q) == MountAt(rec, q)
    decreases hi - lo
  {
    if lo >= hi then ([], rec)
    else
      var (f, rec1) := FireAt(rec, lo, ret);
      var (fs, rec2) := FireRange(rec1, lo + 1, hi, ret);
      (Tagged(lo, f) + fs, rec2)
  }

  function Tagged(p: int, fns: seq<Value>): (r: seq<(int, Value)>)
    ensures |r| == |fns|
    ensures forall i :: 0 <= i < |r| ==> r[i] == (p, fns[i])
  {
    seq(|fns|, i requires 0 <= i < |fns| => (p, fns[i]))
  }

  /** How often position `p` occurs in a firing list. */
  function Occurrences(fired: seq<(int, Value)>, p: int): nat {
    if fired == [] then 0 else (if fired[0].0 == p then 1 else 0) + Occurrences(fired[1..], p)
  }

  lemma {:induction false} OccurrencesConcat(a: seq<(int, Value)>, b: seq<(int, Value)>, p: int)
    ensures Occurrences(a + b, p) == Occurrences(a, p) + Occurrences(b, p)
    decreases |a|
  {
    if a == [] {
      assert a + b == b;
    } else {
      assert (a + b)[1..] == a[1..] + b;
      OccurrencesConcat(a[1..], b, p);
    }
  }

  lemma {:induction false} OccurrencesTagged(q: int, fns: seq<Value>, p: int)
    ensures Occurrences(Tagged(q, fns), p) == if p == q then |fns| else 0
    decreases |fns|
  {
    if fns != [] {
      assert Tagged(q, fns)[1..] == Tagged(q, fns[1..]);
      OccurrencesTagged(q, fns[1..], p);
    }
  }

  /** Firing positions `lo .. hi - 1` calls, at each position in that
      range, exactly its live callbacks, and none elsewhere. */
  lemma {:induction false} FireRangeCounts(rec: Record, lo: int, hi: int, ret: nat -> Value, p: int)
    ensures Occurrences(FireRange(rec, lo, hi, ret).0, p) == if lo <= p < hi then LiveAt(rec, p) else 0
    decreases hi - lo
  {
    if lo < hi {
      var (f, rec1) := FireAt(rec, lo, ret);
      var (fs, rec2) := FireRange(rec1, lo + 1, hi, ret);
      assert FireRange(rec, lo, hi, ret).0 == Tagged(lo, f) + fs;
      OccurrencesConcat(Tagged(lo, f), fs, p);
      OccurrencesTagged(lo, f, p);
      FireRangeCounts(rec1, lo + 1, hi, ret, p);
      assert LiveAt(rec1, p) == LiveAt(rec, p);
    }
  }

  // ---------------------------------------------------------------------
  // The pass

  datatype Rendered = Rendered(
    output: Value,
    store: Store,
    fired: seq<(int, Value)>,
    calls: seq<(Value, Value)>,
    outOfFuel: bool)

  /** The walk state a pass composes from: the counter at -1. */
  function StartWalk(rec: Record): Walk {
    Walk(-1, 0, 0, rec, [], false)
  }

  /** The record a pass composes with: created if missing (lines 170-180),
      subscribed to re-renders when asked (lines 185-192), mounts cleared. */
  function Prepared(store: Store, id: string, subscribe: bool): (r: Record)
    ensures r.effected == (if id in store then store[id].effected else {})
    ensures r.hash == (if id in store then store[id].hash else map[])
    ensures r.rendered == (if id in store then store[id].rendered else map[])
    ensures r.state == (if id in store then store[id].state else map[])
    ensures forall p :: LiveAt(r, p) == 0
  {
    var rec0 := GetOrCreate(store, id)[id];
    ClearMounts(if subscribe then rec0.(listener := true) else rec0)
  }

  /** One pass of `render`. `renderer` is the sink, `ret` what each effect
      function returns, `subscribe` whether `allowReRender` or
      `onReRender` is set. */
  function RenderPass(store: Store, id: string, subject: Value, env: Env, renderer: Value -> Value,
                      ret: nat -> Value, subscribe: bool, fuel: nat): (r: Rendered)
    ensures id in r.store
    ensures forall t :: t != id ==> (t in r.store <==> t in store)
    ensures forall t :: t != id && t in store ==> r.store[t] == store[t]
    ensures id in store ==> store[id].effected <= r.store[id].effected
    ensures !r.store[id].inProgress
  {
    var rec := Prepared(store, id, subscribe);
    var c := Compose(env, subject, StartWalk(rec), fuel);
    ComposeFrame(env, subject, StartWalk(rec), fuel);
    var fr := FireRange(c.walk.rec, 0, c.walk.offset + 1, ret);
    Rendered(renderer(c.value), GetOrCreate(store, id)[id := fr.1.(inProgress := false)],
             fr.0, c.walk.calls, c.walk.outOfFuel)
  }

  lemma RenderPassUnfold(store: Store, id: string, subject: Value, env: Env, renderer: Value -> Value,
                         ret: nat -> Value, subscribe: bool, fuel: nat)
    ensures var c := Compose(env, subject, StartWalk(Prepared(store, id, subscribe)), fuel);
            var fr := FireRange(c.walk.rec, 0, c.walk.offset + 1, ret);
            var r := RenderPass(store, id, subject, env, renderer, ret, subscribe, fuel);
            && r.output == renderer(c.value)
            && r.fired == fr.0
            && r.calls == c.walk.calls
            && r.store[id] == fr.1.(inProgress := false)
  {
  }

  /** The walk flags only positions it allocates, `0 .. counter`; outside
      them no position holds a live callback. Firing positions `0` to the
      final counter therefore fires every live callback. */
  lemma NothingLiveOutsidePass(env: Env, subject: Value, rec: Record, fuel: nat, p: int)
    requires forall q :: LiveAt(rec, q) == 0
    ensures var c := Compose(env, subject, StartWalk(rec), fuel);
            p < 0 || p > c.walk.offset ==> LiveAt(c.walk.rec, p) == 0
  {
    var c := Compose(env, subject, StartWalk(rec), fuel);
    ComposeFrame(env, subject, StartWalk(rec), fuel);
    ComposeKeepsEffectOnce(rec.effected, env, subject, StartWalk(rec), fuel);
    if p < 0 || p > c.walk.offset {
      WindowFrameAt(rec, c.walk.rec, -1, c.walk.offset, p);
    }
  }

  /** Effects fire at most once: in one pass each position fires at most
      one callback, only a position first flagged during this pass fires,
      and the flag stays set. */
  lemma RenderFiresOnce(store: Store, id: string, subject: Value, env: Env, renderer: Value -> Value,
                        ret: nat -> Value, subscribe: bool, fuel: nat, p: int)
    ensures var r := RenderPass(store, id, subject, env, renderer, ret, subscribe, fuel);
            var e0 := if id in store then store[id].effected else {};
            && Occurrences(r.fired, p) <= 1
            && (Occurrences(r.fired, p) == 1 ==> p !in e0 && p in r.store[id].effected)
  {
    var rec := Prepared(store, id, subscribe);
    var c := Compose(env, subject, StartWalk(rec), fuel);
    RenderPassUnfold(store, id, subject, env, renderer, ret, subscribe, fuel);
    ComposeKeepsEffectOnce(rec.effected, env, subject, StartWalk(rec), fuel);
    FireRangeOnce(rec.effected, c.walk.rec, c.walk.offset + 1, ret, p);
  }

  /** Firing positions `0 .. hi - 1` of a record that keeps the
      effect-once invariant fires each position at most once, and only a
      position flagged since `e0`. */
  lemma FireRangeOnce(e0: set<int>, rec: Record, hi: int, ret: nat -> Value, p: int)
    requires EffectOnce(e0, rec)
    ensures var fr := FireRange(rec, 0, hi, ret);
            && Occurrences(fr.0, p) <= 1
            && (Occurrences(fr.0, p) == 1 ==> p !in e0 && p in fr.1.effected)
  {
    var fr := FireRange(rec, 0, hi, ret);
    assert LiveAt(rec, p) <= (if p in rec.effected && p !in e0 then 1 else 0);
    FireRangeCounts(rec, 0, hi, ret, p);
    assert fr.1.effected == rec.effected;
  }

  /** Across two passes over the same target, no position fires twice,
      whatever happens to the record in between as long as no flag is
      cleared (and nothing in the source clears one). */
  lemma NoPositionFiresTwice(store: Store, id: string, s1: Value, env1: Env, rd1: Value -> Value, ret1: nat -> Value,
                             sub1: bool, fuel1: nat, between: Store, s2: Value, env2: Env, rd2: Value -> Value,
                             ret2: nat -> Value, sub2: bool, fuel2: nat, p: int)
    requires id in between
    requires RenderPass(store, id, s1, env1, rd1, ret1, sub1, fuel1).store[id].effected <= between[id].effected
    ensures Occurrences(RenderPass(store, id, s1, env1, rd1, ret1, sub1, fuel1).fired, p) == 0 ||
            Occurrences(RenderPass(between, id, s2, env2, rd2, ret2, sub2, fuel2).fired, p) == 0
  {
    RenderFiresOnce(store, id, s1, env1, rd1, ret1, sub1, fuel1, p);
    RenderFiresOnce(between, id, s2, env2, rd2, ret2, sub2, fuel2, p);
  }

  /** A pass keeps every truthy state slot of its target: preparing the
      record, composing and firing effects never overwrite one. */
  lemma RenderPassKeepsTruthySlot(store: Store, id: string, subject: Value, env: Env, renderer: Value -> Value,
                                  ret: nat -> Value, subscribe: bool, fuel: nat, p: int, i: nat)
    requires id in store && Truthy(StateSlot(store[id], p, i))
    ensures StateSlot(RenderPass(store, id, subject, env, renderer, ret, subscribe, fuel).store[id], p, i)
            == StateSlot(store[id], p, i)
  {
    var rec := Prepared(store, id, subscribe);
    assert rec.state == store[id].state;
    var c := Compose(env, subject, StartWalk(rec), fuel);
    ComposeKeepsTruthySlot(env, subject, StartWalk(rec), fuel, p, i);
    var fr := FireRange(c.walk.rec, 0, c.walk.offset + 1, ret);
    RenderPassUnfold(store, id, subject, env, renderer, ret, subscribe, fuel);
    assert fr.1.state == c.walk.rec.state;
  }

  /** A truthy `useState` value stored for a target survives a render pass
      of that target: a call at the same position and slot in the next
      pass returns a clone of it, whatever its default. */
  lemma StatePersistsAcrossPasses(store: Store, id: string, subject: Value, env: Env, renderer: Value -> Value,
                                  ret: nat -> Value, subscribe: bool, fuel: nat, w: Walk, initial: Value)
    requires id in store && Truthy(StateSlot(store[id], w.offset, w.stateIndex + 1))
    requires w.rec == RenderPass(store, id, subject, env, renderer, ret, subscribe, fuel).store[id]
    ensures UseState(w, initial).0 == CloneDeep(StateSlot(store[id], w.offset, w.stateIndex + 1))
  {
    RenderPassKeepsTruthySlot(store, id, subject, env, renderer, ret, subscribe, fuel, w.offset, w.stateIndex + 1);
  }

  // ---------------------------------------------------------------------
  // renderString (lines 241-250)

  /** The composer `renderString` hands to `render` is `composeString`
      (line 249): the string tag builder behind a second `compose`. */
  function StringEnv(scripts: nat -> Script): Env {
    Env(StringComposer, scripts, true)
  }

  /** `renderString(composable, { renderID })` with an explicit id; the
      output is a string. */
  function RenderString(store: Store, id: string, subject: Value, scripts: nat -> Script,
                        ret: nat -> Value, fuel: nat): (r: Rendered)
    ensures r.output.Str?
    ensures id in r.store
  {
    RenderPass(store, id, subject, StringEnv(scripts), v => Str(StringSink(v)), ret, false, fuel)
  }

  // ---------------------------------------------------------------------
  // Position 0 and the cache across passes

  /** The subject takes position 0: unless its fingerprint there already
      matches a truthy cached result, the pass stores its fingerprint at
      position 0. */
  lemma RenderHashesSubjectAtZero(store: Store, id: string, subject: Value, env: Env, renderer: Value -> Value,
                                  ret: nat -> Value, subscribe: bool, fuel: nat)
    requires IsNode(subject)
    requires !(id in store && CacheHit(store[id], 0, HashOf(subject, 0)))
    ensures var r := RenderPass(store, id, subject, env, renderer, ret, subscribe, fuel);
            0 in r.store[id].hash && r.store[id].hash[0] == HashOf(subject, 0)
  {
    var rec := Prepared(store, id, subscribe);
    assert !CacheHit(rec, 0, HashOf(subject, 0));
    RenderPassUnfold(store, id, subject, env, renderer, ret, subscribe, fuel);
    MissStoresHashAndResult(env, subject, StartWalk(rec), fuel);
  }

  /** When the fingerprint at position 0 matches and a truthy result is
      cached there, the pass renders the cached result and composes
      nothing. */
  lemma RenderCacheHit(store: Store, id: string, subject: Value, env: Env, renderer: Value -> Value,
                       ret: nat -> Value, subscribe: bool, fuel: nat)
    requires IsNode(subject) && id in store && CacheHit(store[id], 0, HashOf(subject, 0))
    ensures var r := RenderPass(store, id, subject, env, renderer, ret, subscribe, fuel);
            r.output == renderer(store[id].rendered[0]) && r.calls == []
  {
    var rec := Prepared(store, id, subscribe);
    RenderPassUnfold(store, id, subject, env, renderer, ret, subscribe, fuel);
    CacheHitShortCircuits(env, subject, StartWalk(rec), fuel);
  }

  /** A miss at position 0 on a subject whose children allocate leaves
      position 0's cached result as it was: if a truthy one was there
      (left by an earlier pass over some other tree), the pass stores the
      subject's fingerprint next to it, and the following pass over the
      same subject serves that stale result instead of composing. */
  lemma StaleResultServed(store: Store, id: string, subject: Value, env: Env, renderer: Value -> Value,
                          ret: nat -> Value, subscribe: bool, fuel: nat,
                          env': Env, renderer': Value -> Value, ret': nat -> Value, subscribe': bool, fuel': nat)
    requires IsNode(subject) && !NoAlloc(Member(subject, "children"))
    requires id in store && 0 in store[id].rendered && Truthy(store[id].rendered[0])
    requires !CacheHit(store[id], 0, HashOf(subject, 0))
    ensures var r1 := RenderPass(store, id, subject, env, renderer, ret, subscribe, fuel);
            var r2 := RenderPass(r1.store, id, subject, env', renderer', ret', subscribe', fuel');
            r2.output == renderer'(store[id].rendered[0]) && r2.calls == []
  {
    var rec := Prepared(store, id, subscribe);
    var c := Compose(env, subject, StartWalk(rec), fuel);
    RenderPassUnfold(store, id, subject, env, renderer, ret, subscribe, fuel);
    MissLeavesOwnEntry(env, subject, StartWalk(rec), fuel);
    RenderHashesSubjectAtZero(store, id, subject, env, renderer, ret, subscribe, fuel);
    var r1 := RenderPass(store, id, subject, env, renderer, ret, subscribe, fuel);
    assert r1.store[id].rendered == c.walk.rec.rendered;
    RenderCacheHit(r1.store, id, subject, env', renderer', ret', subscribe', fuel');
  }

  // ---------------------------------------------------------------------
  // A worked pass

  /** `<div>hello</div>` in JSX: `composable("div", null, "hello")`. */
  function Hello(): Value {
    Composable(Str("div"), Null, [Str("hello")])
  }

  /** The composer's text for `Hello()` and its composed children. */
  lemma HelloTag()
    ensures TagText(Hello(), Arr([Str("hello")])) == "<div >hello</div>"
  {
    HelloParts();
    var texts := seq(1, i requires 0 <= i < 1 => ElementText([Str("hello")][i]));
    assert texts == ["hello"];
    assert ContentText(Arr([Str("hello")])) == "hello";
    assert TagText(Hello(), Arr([Str("hello")])) == Tag("div", "", "hello");
    DivTag();
  }

  lemma HelloParts()
    ensures ToJsString(Member(Hello(), "target")) == "div"
    ensures Attributes(TagProps(Hello())) == []
  {
    assert Member(Hello(), "props") == Obj([]);
    assert Entries(Obj([])) == [];
  }

  /** A tag whose only child is a non-empty text: `Hello()` is one. */
  predicate TextTag(node: Value, t: string) {
    && IsNode(node) && TargetOf(node).Intrinsic? && TargetOf(node).name != "null"
    && Member(node, "children") == Arr([Str(t)]) && t != ""
  }

  lemma HelloIsTextTag()
    ensures TextTag(Hello(), "hello")
  {
    assert Member(Hello(), "target") == Str("div");
  }

  /** The children of a text tag after a miss: the text takes the next
      position and passes through. */
  lemma TextTagChildren(env: Env, node: Value, t: string, w: Walk, fuel: nat) returns (kids: Composed)
    requires TextTag(node, t)
    ensures kids == ChildrenOf(env, node, MissWalk(node, w), fuel)
    ensures kids == Composed(Arr([Str(t)]), Enter(MissWalk(node, w)))
  {
    var mw := MissWalk(node, w);
    var text := Compose(env, Str(t), mw, fuel);
    RawPassesThrough(env, Str(t), mw, fuel);
    kids := Compose(env, Arr([Str(t)]), mw, fuel);
    ArrayMapsElements(env, [Str(t)], mw, fuel);
    EmptyArrayIsFree(env, text.walk, fuel);
    assert [Str(t)][1..] == [];
  }

  /** Composing a text tag after a miss at its position with a composer
      that does not re-enter: the text takes the next position, the
      composer is called once, and the record gains the fingerprint at the
      tag's position and the result at the text's position, and nothing
      else. */
  lemma TextTagComposes(env: Env, node: Value, t: string, w: Walk, fuel: nat)
    requires TextTag(node, t) && !env.reenter
    requires !CacheHit(w.rec, w.offset + 1, HashOf(node, w.offset + 1))
    ensures var c := Compose(env, node, w, fuel);
            var v := env.composer(node, Arr([Str(t)]));
            && c.value == v
            && c.walk.offset == w.offset + 2
            && c.walk.calls == w.calls + [(node, Arr([Str(t)]))]
            && c.walk.rec == w.rec.(hash := w.rec.hash[w.offset + 1 := HashOf(node, w.offset + 1)],
                                    rendered := w.rec.rendered[w.offset + 2 := v])
  {
    var kids := TextTagChildren(env, node, t, w, fuel);
    ComposeOnMiss(env, node, w, fuel);
    DispatchOnIntrinsic(env, node, kids, fuel);
  }

  /** Composing a text tag with a re-entrant composer (`composeString`)
      after misses at its position and two positions further on: the text
      takes the next position, then the tag is entered again after it and
      composed with the tag builder. The fingerprint is written at the
      tag's first and second positions, the tag builder is called once,
      and the result is cached only at the second text's position, four
      positions on. */
  lemma TextTagComposesTwice(env: Env, node: Value, t: string, w: Walk, fuel: nat)
    requires TextTag(node, t) && env.reenter
    requires !CacheHit(w.rec, w.offset + 1, HashOf(node, w.offset + 1))
    requires !CacheHit(w.rec, w.offset + 3, HashOf(node, w.offset + 3))
    ensures var c := Compose(env, node, w, fuel);
            var v := env.composer(node, Arr([Str(t)]));
            && c.value == v
            && c.walk.offset == w.offset + 4
            && c.walk.calls == w.calls + [(node, Arr([Str(t)]))]
            && c.walk.rec == w.rec.(hash := w.rec.hash[w.offset + 1 := HashOf(node, w.offset + 1)]
                                                     [w.offset + 3 := HashOf(node, w.offset + 3)],
                                    rendered := w.rec.rendered[w.offset + 4 := v])
  {
    var kids := TextTagChildren(env, node, t, w, fuel);
    var kw := kids.walk;
    assert Reenters(env, node);
    ComposeOnReentry(env, node, w, fuel);
    TextTagComposes(Inner(env), node, t, kw, fuel);
    var again := Compose(Inner(env), node, kw, fuel);
    var last := StoreResult(again.walk, again.walk.offset, again.value);
    assert last.rec == again.walk.rec;
  }

  /** A `renderString` pass over a text tag on a record with no cached
      result at positions 0 and 2: the tag takes positions 0 and 2 (before
      and after its text), the tag builder is called once, and the output
      is the tag text. The fingerprints are written at 0 and 2, while the
      result is cached at 3, the position of the second text. */
  lemma TextTagPass(store: Store, id: string, node: Value, t: string, scripts: nat -> Script,
                    ret: nat -> Value, fuel: nat)
    requires TextTag(node, t)
    requires id in store ==> 0 !in store[id].rendered && 2 !in store[id].rendered
    ensures var r := RenderString(store, id, node, scripts, ret, fuel);
            var h0 := if id in store then store[id].hash else map[];
            var r0 := if id in store then store[id].rendered else map[];
            var v := StringComposer(node, Arr([Str(t)]));
            && r.output == v
            && r.calls == [(node, Arr([Str(t)]))]
            && r.store[id].hash == h0[0 := HashOf(node, 0)][2 := HashOf(node, 2)]
            && r.store[id].rendered == r0[3 := v]
  {
    var env := StringEnv(scripts);
    var rec := Prepared(store, id, false);
    TextTagComposesTwice(env, node, t, StartWalk(rec), fuel);
    RenderPassUnfold(store, id, node, env, v => Str(StringSink(v)), ret, false, fuel);
  }

  /** The first pass over a text tag on a new target leaves fingerprints
      at 0 and 2 and a cached result only at 3. */
  lemma TextTagFirstPass(store: Store, id: string, node: Value, t: string, scripts: nat -> Script,
                         ret: nat -> Value, fuel: nat)
    requires TextTag(node, t) && id !in store
    ensures var r := RenderString(store, id, node, scripts, ret, fuel);
            && r.store[id].hash.Keys == {0, 2}
            && r.store[id].rendered.Keys == {3}
  {
    TextTagPass(store, id, node, t, scripts, ret, fuel);
  }

  /** The first pass caches its result at position 3 while the next pass
      checks positions 0 and 2, so a second pass over the same text tag
      composes it again: it calls the tag builder again and renders the
      same text. */
  lemma TextTagSecondPassComposesAgain(store: Store, id: string, node: Value, t: string,
                                       scripts: nat -> Script, ret: nat -> Value, fuel: nat)
    requires TextTag(node, t) && id !in store
    ensures var r1 := RenderString(store, id, node, scripts, ret, fuel);
            var r2 := RenderString(r1.store, id, node, scripts, ret, fuel);
            r2.output == r1.output && r2.calls == r1.calls == [(node, Arr([Str(t)]))]
  {
    TextTagPass(store, id, node, t, scripts, ret, fuel);
    TextTagPass(RenderString(store, id, node, scripts, ret, fuel).store, id, node, t, scripts, ret, fuel);
  }

  /** `renderString(Hello())`: the output is `<div >hello</div>`, the
      fingerprints are written at 0 and 2 and the result is cached at 3. */
  lemma HelloPass(store: Store, scripts: nat -> Script, ret: nat -> Value, fuel: nat)
    requires "app" in store ==> 0 !in store["app"].rendered && 2 !in store["app"].rendered
    ensures var r := RenderString(store, "app", Hello(), scripts, ret, fuel);
            var h0 := if "app" in store then store["app"].hash else map[];
            var r0 := if "app" in store then store["app"].rendered else map[];
            && r.output == Str("<div >hello</div>")
            && r.calls == [(Hello(), Arr([Str("hello")]))]
            && r.store["app"].hash == h0[0 := HashOf(Hello(), 0)][2 := HashOf(Hello(), 2)]
            && r.store["app"].rendered == r0[3 := Str("<div >hello</div>")]
  {
    HelloIsTextTag();
    HelloTag();
    TextTagPass(store, "app", Hello(), "hello", scripts, ret, fuel);
  }

  // ---------------------------------------------------------------------
  // A component under a tag in `renderString`

  /** A childless component node (`composable(Comp, props)`) whose script
      makes one `useEffect(f)` call and whose view returns the truthy raw
      value `out`. */
  predicate EffectLeaf(env: Env, comp: Value, f: Value, out: Value) {
    && IsNode(comp) && TargetOf(comp).Component? && Member(comp, "children") == Arr([])
    && env.scripts(TargetOf(comp).id).hooks == [EffectHook(f)]
    && env.scripts(TargetOf(comp).id).view(ComponentProps(comp), []) == out
    && IsRaw(out) && Truthy(out)
  }

  /** The walk after the component's hook: its `useEffect` runs at the
      component's position with the effect index reset. */
  function LeafHooked(comp: Value, f: Value, w: Walk): Walk {
    UseEffect(MissWalk(comp, w), f)
  }

  lemma LeafHookedEffect(comp: Value, f: Value, w: Walk)
    ensures var p := w.offset + 1;
            var u := LeafHooked(comp, f, w);
            && u.offset == p && u.calls == w.calls
            && u.rec.effected == w.rec.effected + {p}
            && u.rec.rendered == w.rec.rendered
            && MountAt(u.rec, p) == SetSlot(MountAt(w.rec, p), 1, if p in w.rec.effected then Null else f)
            && WindowFrame(w.rec, u.rec, w.offset, p)
  {
    var mw := MissWalk(comp, w);
    UseEffectFrame(mw, f);
    assert MountAt(mw.rec, mw.offset) == MountAt(w.rec, mw.offset);
  }

  /** The component's dispatch after its children: its hook runs, and
      its raw output takes the next position. */
  lemma EffectLeafDispatch(env: Env, comp: Value, f: Value, out: Value, w: Walk, fuel: nat)
    requires EffectLeaf(env, comp, f, out) && fuel > 0
    ensures Dispatch(env, comp, Composed(Arr([]), MissWalk(comp, w)), fuel) ==
              Composed(out, Enter(LeafHooked(comp, f, w)))
  {
    var mw := MissWalk(comp, w);
    DispatchIsExpand(env, comp, Composed(Arr([]), mw), fuel);
    ExpandUnfold(env, TargetOf(comp).id, comp, mw, fuel - 1);
    var uw := UseEffect(mw, f);
    assert [EffectHook(f)][1..] == [];
    assert RunHooks([EffectHook(f)], mw) == ([], uw);
    RawPassesThrough(env, out, uw, fuel - 1);
  }

  /** A miss on the component: its children allocate nothing, and the
      dispatch's result is stored at the output's position. */
  lemma EffectLeafUnfold(env: Env, comp: Value, f: Value, out: Value, w: Walk, fuel: nat)
    requires EffectLeaf(env, comp, f, out) && fuel > 0
    requires w.offset + 1 !in w.rec.rendered
    ensures Compose(env, comp, w, fuel) ==
              Composed(out, StoreResult(Enter(LeafHooked(comp, f, w)), w.offset + 2, out))
  {
    var mw := MissWalk(comp, w);
    EmptyArrayIsFree(env, mw, fuel);
    assert ChildrenOf(env, comp, mw, fuel) == Composed(Arr([]), mw);
    ComposeOnMiss(env, comp, w, fuel);
    EffectLeafDispatch(env, comp, f, out, w, fuel);
  }

  /** Composing such a component after a miss: it takes the next position
      and its output the one after; its hook flags its own position and
      writes `f` into effect slot 1 there unless the position was already
      flagged; nothing outside those two positions changes. */
  lemma EffectLeafComposes(env: Env, comp: Value, f: Value, out: Value, w: Walk, fuel: nat)
    requires EffectLeaf(env, comp, f, out) && fuel > 0
    requires w.offset + 1 !in w.rec.rendered
    ensures var r := Compose(env, comp, w, fuel);
            var p := w.offset + 1;
            && r.value == out && r.walk.offset == p + 1 && r.walk.calls == w.calls
            && r.walk.rec.effected == w.rec.effected + {p}
            && MountAt(r.walk.rec, p) == SetSlot(MountAt(w.rec, p), 1, if p in w.rec.effected then Null else f)
            && WindowFrame(w.rec, r.walk.rec, w.offset, p + 1)
  {
    var p := w.offset + 1;
    var u := LeafHooked(comp, f, w);
    EffectLeafUnfold(env, comp, f, out, w, fuel);
    LeafHookedEffect(comp, f, w);
    var last := StoreResult(Enter(u), p + 1, out);
    assert MountAt(last.rec, p) == MountAt(u.rec, p);
    assert WindowFrame(u.rec, last.rec, p, p + 1);
    WindowFrameTrans(w.rec, u.rec, last.rec, w.offset, w.offset, p, p, p + 1, p + 1);
  }

  /** A tag whose only child is such a component, composed after a miss
      with a composer that does not re-enter: the component runs once, at
      the position after the tag's, and the composer is called once. */
  lemma TagOverEffectLeaf(env: Env, tag: Value, comp: Value, f: Value, out: Value, w: Walk, fuel: nat)
    requires IsNode(tag) && TargetOf(tag).Intrinsic? && TargetOf(tag).name != "null"
    requires Member(tag, "children") == Arr([comp])
    requires EffectLeaf(env, comp, f, out) && fuel > 0 && !env.reenter
    requires w.offset + 1 !in w.rec.rendered && w.offset + 2 !in w.rec.rendered
    ensures var r := Compose(env, tag, w, fuel);
            var p := w.offset + 2;
            && r.value == env.composer(tag, Arr([out]))
            && r.walk.offset == w.offset + 3
            && r.walk.calls == w.calls + [(tag, Arr([out]))]
            && r.walk.rec.effected == w.rec.effected + {p}
            && MountAt(r.walk.rec, p) == SetSlot(MountAt(w.rec, p), 1, if p in w.rec.effected then Null else f)
            && WindowFrame(w.rec, r.walk.rec, w.offset, w.offset + 3)
  {
    var kids := TagOverEffectLeafChildren(env, tag, comp, f, out, w, fuel);
    ComposeOnMiss(env, tag, w, fuel);
    DispatchOnIntrinsic(env, tag, kids, fuel);
  }

  /** A miss only writes the fingerprint at the node's own position. */
  lemma MissWalkFrame(node: Value, w: Walk)
    ensures var mw := MissWalk(node, w);
            && mw.rec == w.rec.(hash := mw.rec.hash)
            && WindowFrame(w.rec, mw.rec, w.offset, w.offset + 1)
  {
  }

  /** The children array of such a tag composes to the component's
      output, with the walk the component leaves. */
  lemma TagOverEffectLeafUnfold(env: Env, tag: Value, comp: Value, f: Value, out: Value, mw: Walk, fuel: nat)
    requires Member(tag, "children") == Arr([comp])
    requires Compose(env, comp, mw, fuel).value == out
    ensures ChildrenOf(env, tag, mw, fuel) == Composed(Arr([out]), Compose(env, comp, mw, fuel).walk)
  {
    var first := Compose(env, comp, mw, fuel);
    ArrayMapsElements(env, [comp], mw, fuel);
    EmptyArrayIsFree(env, first.walk, fuel);
    assert [comp][1..] == [];
  }

  /** The children of such a tag after a miss: the component's step, with
      the tag's fingerprint written first. */
  lemma TagOverEffectLeafChildren(env: Env, tag: Value, comp: Value, f: Value, out: Value, w: Walk, fuel: nat)
      returns (kids: Composed)
    requires IsNode(tag) && Member(tag, "children") == Arr([comp])
    requires EffectLeaf(env, comp, f, out) && fuel > 0
    requires w.offset + 2 !in w.rec.rendered
    ensures kids == ChildrenOf(env, tag, MissWalk(tag, w), fuel)
    ensures var p := w.offset + 2;
            && kids.value == Arr([out])
            && kids.walk.offset == w.offset + 3 && kids.walk.calls == w.calls
            && kids.walk.rec.effected == w.rec.effected + {p}
            && MountAt(kids.walk.rec, p) == SetSlot(MountAt(w.rec, p), 1, if p in w.rec.effected then Null else f)
            && WindowFrame(w.rec, kids.walk.rec, w.offset, w.offset + 3)
  {
    var mw := MissWalk(tag, w);
    MissWalkFrame(tag, w);
    assert mw.offset == w.offset + 1 && mw.calls == w.calls;
    assert mw.rec.rendered == w.rec.rendered && mw.rec.effected == w.rec.effected;
    assert MountAt(mw.rec, w.offset + 2) == MountAt(w.rec, w.offset + 2);
    EffectLeafComposes(env, comp, f, out, mw, fuel);
    var first := Compose(env, comp, mw, fuel);
    TagOverEffectLeafUnfold(env, tag, comp, f, out, mw, fuel);
    kids := ChildrenOf(env, tag, mw, fuel);
    WindowFrameTrans(w.rec, mw.rec, first.walk.rec, w.offset, w.offset, w.offset + 1, mw.offset, w.offset + 3, w.offset + 3);
  }

  /** Where the children of the tag leave the walk, as the second
      composition sees it: three positions on, with the component's
      position flagged and the next three positions as they were. */
  lemma ChildrenBeforeReentry(env: Env, tag: Value, comp: Value, f: Value, out: Value, w: Walk, fuel: nat)
      returns (kw: Walk)
    requires IsNode(tag) && Member(tag, "children") == Arr([comp])
    requires EffectLeaf(env, comp, f, out) && fuel > 0
    requires w.offset + 2 !in w.rec.rendered
    requires w.offset + 4 !in w.rec.rendered && w.offset + 5 !in w.rec.rendered
    ensures kw == ChildrenOf(env, tag, MissWalk(tag, w), fuel).walk
    ensures var p1 := w.offset + 2;
            var p2 := w.offset + 5;
            && kw.offset == w.offset + 3 && kw.calls == w.calls
            && kw.rec.effected == w.rec.effected + {p1}
            && MountAt(kw.rec, p1) == SetSlot(MountAt(w.rec, p1), 1, if p1 in w.rec.effected then Null else f)
            && MountAt(kw.rec, p2) == MountAt(w.rec, p2)
            && w.offset + 4 !in kw.rec.rendered && p2 !in kw.rec.rendered
  {
    var kids := TagOverEffectLeafChildren(env, tag, comp, f, out, w, fuel);
    kw := kids.walk;
    var o := w.offset;
    WindowFrameAt(w.rec, kw.rec, o, o + 3, o + 4);
    WindowFrameAt(w.rec, kw.rec, o, o + 3, o + 5);
    assert MountAt(kw.rec, o + 5) == MountAt(w.rec, o + 5);
  }

  /** The tag's second composition, from the walk its children left:
      the component runs again three positions after its first run, and
      the first run's slot is kept. */
  lemma TagAgain(env: Env, tag: Value, comp: Value, f: Value, out: Value, w: Walk, kw: Walk, fuel: nat)
    requires IsNode(tag) && TargetOf(tag).Intrinsic? && TargetOf(tag).name != "null"
    requires Member(tag, "children") == Arr([comp])
    requires EffectLeaf(env, comp, f, out) && fuel > 0 && env.reenter
    requires kw.offset == w.offset + 3 && kw.calls == w.calls
    requires kw.rec.effected == w.rec.effected + {w.offset + 2}
    requires MountAt(kw.rec, w.offset + 5) == MountAt(w.rec, w.offset + 5)
    requires w.offset + 4 !in kw.rec.rendered && w.offset + 5 !in kw.rec.rendered
    ensures var again := Compose(Inner(env), tag, kw, fuel);
            var p1 := w.offset + 2;
            var p2 := w.offset + 5;
            && again.value == env.composer(tag, Arr([out]))
            && again.walk.offset == w.offset + 6
            && again.walk.calls == w.calls + [(tag, Arr([out]))]
            && again.walk.rec.effected == w.rec.effected + {p1, p2}
            && MountAt(again.walk.rec, p1) == MountAt(kw.rec, p1)
            && MountAt(again.walk.rec, p2) == SetSlot(MountAt(w.rec, p2), 1, if p2 in w.rec.effected then Null else f)
  {
    assert Inner(env).scripts == env.scripts && !Inner(env).reenter;
    assert EffectLeaf(Inner(env), comp, f, out);
    TagOverEffectLeaf(Inner(env), tag, comp, f, out, kw, fuel);
    var again := Compose(Inner(env), tag, kw, fuel);
    WindowFrameAt(kw.rec, again.walk.rec, kw.offset, kw.offset + 3, w.offset + 2);
  }

  /** The same tag under a re-entrant composer (`composeString`, lines
      147-148): after the children, the tag is composed again from the
      counter's current value, so the component runs a second time, three
      positions after the first, and both positions are flagged. */
  lemma TagOverEffectLeafTwice(env: Env, tag: Value, comp: Value, f: Value, out: Value, w: Walk, fuel: nat)
    requires IsNode(tag) && TargetOf(tag).Intrinsic? && TargetOf(tag).name != "null"
    requires Member(tag, "children") == Arr([comp])
    requires EffectLeaf(env, comp, f, out) && fuel > 0 && env.reenter
    requires w.offset + 1 !in w.rec.rendered && w.offset + 2 !in w.rec.rendered
    requires w.offset + 4 !in w.rec.rendered && w.offset + 5 !in w.rec.rendered
    ensures var r := Compose(env, tag, w, fuel);
            var p1 := w.offset + 2;
            var p2 := w.offset + 5;
            && r.value == env.composer(tag, Arr([out]))
            && r.walk.offset == w.offset + 6
            && r.walk.calls == w.calls + [(tag, Arr([out]))]
            && r.walk.rec.effected == w.rec.effected + {p1, p2}
            && MountAt(r.walk.rec, p1) == SetSlot(MountAt(w.rec, p1), 1, if p1 in w.rec.effected then Null else f)
            && MountAt(r.walk.rec, p2) == SetSlot(MountAt(w.rec, p2), 1, if p2 in w.rec.effected then Null else f)
  {
    var kw := ChildrenBeforeReentry(env, tag, comp, f, out, w, fuel);
    TagAgain(env, tag, comp, f, out, w, kw, fuel);
    var again := Compose(Inner(env), tag, kw, fuel);
    assert Reenters(env, tag);
    ComposeOnReentry(env, tag, w, fuel);
    var last := StoreResult(again.walk, again.walk.offset, again.value);
    assert Compose(env, tag, w, fuel) == Composed(again.value, last);
    assert last.rec.effects == again.walk.rec.effects && last.rec.effected == again.walk.rec.effected;
    assert MountAt(last.rec, w.offset + 2) == MountAt(again.walk.rec, w.offset + 2);
    assert MountAt(last.rec, w.offset + 5) == MountAt(again.walk.rec, w.offset + 5);
  }

  /** An effect function written into slot 1 of an empty mount list is
      the one live callback there. */
  lemma FirstSlotLive(f: Value)
    requires f.Fun?
    ensures LiveCount(SetSlot([], 1, f)) == 1
  {
    assert SetSlot([], 1, f) == [Undef, f];
    assert [Undef, f][1..] == [f];
    assert [f][1..] == [];
  }

  /** The walk of such a tree from a counter at -1 on a record with no
      cached results, effects or flags: the component runs at 1 and at 4
      and leaves `f` alone in effect slot 1 at each. */
  lemma TagTwiceFromScratch(env: Env, tag: Value, comp: Value, f: Value, out: Value, rec: Record, fuel: nat)
    requires IsNode(tag) && TargetOf(tag).Intrinsic? && TargetOf(tag).name != "null"
    requires Member(tag, "children") == Arr([comp])
    requires EffectLeaf(env, comp, f, out) && fuel > 0 && env.reenter
    requires rec.effects == map[] && rec.rendered == map[] && rec.effected == {}
    ensures var c := Compose(env, tag, StartWalk(rec), fuel);
            && c.walk.offset == 5
            && c.walk.calls == [(tag, Arr([out]))]
            && c.walk.rec.effected == {1, 4}
            && MountAt(c.walk.rec, 1) == SetSlot([], 1, f) && MountAt(c.walk.rec, 4) == SetSlot([], 1, f)
  {
    assert MountAt(rec, 1) == [] && MountAt(rec, 4) == [];
    TagOverEffectLeafTwice(env, tag, comp, f, out, StartWalk(rec), fuel);
  }

  /** Firing a record whose position `p` holds only the function `f`, in
      slot 1, fires `p` exactly once when it lies in the fired range. */
  lemma FiresOnceAt(rec: Record, hi: int, ret: nat -> Value, p: int, f: Value)
    requires 0 <= p < hi && f.Fun? && MountAt(rec, p) == SetSlot([], 1, f)
    ensures var fr := FireRange(rec, 0, hi, ret);
            Occurrences(fr.0, p) == 1 && fr.1.effected == rec.effected
  {
    FirstSlotLive(f);
    FireRangeCounts(rec, 0, hi, ret, p);
  }

  /** `renderString` over a tag whose only child is a component with one
      `useEffect(f)`, on a new target: the tag is composed at 0 and again
      at 3, so the component runs at 1 and at 4, and `f` fires once at
      each of those positions in this single pass. The tag builder is
      called once. */
  lemma EffectFiresTwiceUnderTag(store: Store, id: string, tag: Value, comp: Value, f: Value, out: Value,
                                 scripts: nat -> Script, ret: nat -> Value, fuel: nat)
    requires id !in store
    requires IsNode(tag) && TargetOf(tag).Intrinsic? && TargetOf(tag).name != "null"
    requires Member(tag, "children") == Arr([comp])
    requires EffectLeaf(StringEnv(scripts), comp, f, out) && fuel > 0 && f.Fun?
    ensures var r := RenderString(store, id, tag, scripts, ret, fuel);
            && r.calls == [(tag, Arr([out]))]
            && r.store[id].effected == {1, 4}
            && Occurrences(r.fired, 1) == 1 && Occurrences(r.fired, 4) == 1
  {
    var env := StringEnv(scripts);
    var rec := Prepared(store, id, false);
    TagTwiceFromScratch(env, tag, comp, f, out, rec, fuel);
    var c := Compose(env, tag, StartWalk(rec), fuel);
    FiresOnceAt(c.walk.rec, c.walk.offset + 1, ret, 1, f);
    FiresOnceAt(c.walk.rec, c.walk.offset + 1, ret, 4, f);
    RenderPassUnfold(store, id, tag, env, v => Str(StringSink(v)), ret, false, fuel);
  }
}

=== FILE: strings.dfy ===
/** The string backend: the composer `composeString` installs
    (src/jiffy.js:147-157), the event-handler map it consults (lines 4-12)
    and the sink `renderString` hands to `render` (line 249). */
module StringBackend {
  import opened Values
  import opened Nodes

  /** `eventHandlerMap`: JSX event prop name to DOM event name. */
  const EventHandlerMap: map<string, string> := map[
    "onClick" := "click",
    "onMouseDown" := "mousedown",
    "onMouseUp" := "mouseup",
    "onMouseMove" := "mousemove",
    "onKeyPress" := "keypress",
    "onKeyDown" := "keydown",
    "onKeyUp" := "keyup"]

  /** Names every plain object inherits from `Object.prototype`. Reading
      one of them on the map yields a function or an object, both truthy,
      so such a prop is filtered out like an event handler. */
  const PrototypeNames: set<string> := {
    "constructor", "hasOwnProperty", "isPrototypeOf", "propertyIsEnumerable",
    "toLocaleString", "toString", "valueOf", "__proto__",
    "__defineGetter__", "__defineSetter__", "__lookupGetter__", "__lookupSetter__"}

  /** `eventHandlerMap[key]` is truthy. */
  predicate IsEventKey(key: string) {
    key in EventHandlerMap || key in PrototypeNames
  }

  /** `Object.keys(props).filter(key => !eventHandlerMap[key])`, kept with
      the value each key reads. */
  function NonEventEntries(fs: seq<(string, Value)>): (r: seq<(string, Value)>)
    ensures |r| <= |fs|
    ensures forall e :: e in r <==> e in fs && !IsEventKey(e.0)
  {
    if fs == [] then [] else Kept(fs[0]) + NonEventEntries(fs[1..])
  }

  /** One entry, kept or dropped. */
  function Kept(e: (string, Value)): (r: seq<(string, Value)>)
    ensures r == if IsEventKey(e.0) then [] else [e]
  {
    if IsEventKey(e.0) then [] else [e]
  }

  /** The filter keeps order: filtering a concatenation filters each part. */
  lemma {:induction false} NonEventEntriesConcat(fs: seq<(string, Value)>, gs: seq<(string, Value)>)
    ensures NonEventEntries(fs + gs) == NonEventEntries(fs) + NonEventEntries(gs)
    decreases |fs|
  {
    if fs == [] {
      assert fs + gs == gs;
    } else {
      assert (fs + gs)[0] == fs[0];
      assert (fs + gs)[1..] == fs[1..] + gs;
      NonEventEntriesConcat(fs[1..], gs);
      assert NonEventEntries(fs + gs) == Kept(fs[0]) + (NonEventEntries(fs[1..]) + NonEventEntries(gs));
    }
  }

  /** Filtering twice is filtering once. */
  lemma {:induction false} NonEventEntriesIdempotent(fs: seq<(string, Value)>)
    ensures NonEventEntries(NonEventEntries(fs)) == NonEventEntries(fs)
    decreases |fs|
  {
    if fs != [] {
      NonEventEntriesIdempotent(fs[1..]);
      var rest := NonEventEntries(fs[1..]);
      NonEventEntriesConcat(Kept(fs[0]), rest);
      if !IsEventKey(fs[0].0) {
        assert NonEventEntries([fs[0]]) == [fs[0]] + NonEventEntries([fs[0]][1..]);
        assert [fs[0]][1..] == [];
      }
    }
  }

  /** `${key}=${props[key]}`. */
  function AttrText(e: (string, Value)): string {
    e.0 + "=" + ToJsString(e.1)
  }

  /** The attribute texts of a props value, in key order. */
  function Attributes(props: Value): (r: seq<string>)
    ensures forall a :: a in r <==>
              exists e :: e in Entries(props) && !IsEventKey(e.0) && a == AttrText(e)
  {
    var kept := NonEventEntries(Entries(props));
    var r := seq(|kept|, i requires 0 <= i < |kept| => AttrText(kept[i]));
    assert forall i :: 0 <= i < |kept| ==> r[i] == AttrText(kept[i]) && kept[i] in kept;
    r
  }

  /** Event handler props leave no trace in the tag: a props object and its
      event-free part yield the same attributes. */
  lemma EventPropsInvisible(fs: seq<(string, Value)>)
    ensures Attributes(Obj(fs)) == Attributes(Obj(NonEventEntries(fs)))
  {
    NonEventEntriesIdempotent(fs);
  }

  /** `Array.isArray(content) ? content.join("") : content`, in a template. */
  function ContentText(content: Value): string {
    if content.Arr? then JoinValues(content.items, "") else ToJsString(content)
  }

  /** The props `composeString` reads: `props = {}` defaults a missing one. */
  function TagProps(node: Value): Value {
    var p := Member(node, "props");
    if p.Undef? then Obj([]) else p
  }

  /** `r` reads `<t attrs>text</t>`: the name, one space, the attribute
      text, `>`, the content text, and the closing tag, with nothing else
      in between. */
  predicate TagForm(r: string, t: string, attrs: string, text: string) {
    && |r| == 2 * |t| + |attrs| + |text| + 6
    && r[..|t| + 2] == "<" + t + " "
    && r[|t| + 2..|t| + 2 + |attrs|] == attrs
    && r[|t| + 2 + |attrs|] == '>'
    && r[|t| + 3 + |attrs|..|r| - |t| - 3] == text
    && r[|r| - |t| - 3..] == "</" + t + ">"
  }

  /** A tag's parts determine the tag. */
  lemma TagFormUnique(r: string, r': string, t: string, attrs: string, text: string)
    requires TagForm(r, t, attrs, text) && TagForm(r', t, attrs, text)
    ensures r == r'
  {
    var a, b, c := |t| + 2, |t| + 2 + |attrs|, |t| + 3 + |attrs|;
    var d := |r| - |t| - 3;
    assert r == r[..a] + r[a..b] + [r[b]] + r[c..d] + r[d..];
    assert r' == r'[..a] + r'[a..b] + [r'[b]] + r'[c..d] + r'[d..];
  }

  /** `<t attrs>text</t>`: the opening tag always has a space after the
      name, whether or not attributes follow. */
  function Tag(t: string, attrs: string, text: string): (r: string)
    ensures TagForm(r, t, attrs, text)
  {
    var r := "<" + t + " " + attrs + ">" + text + "</" + t + ">";
    assert r == ("<" + t + " ") + attrs + (">" + text + "</" + t + ">");
    r
  }

  /** The tag of a `div` without attributes around the text `hello`. */
  lemma DivTag()
    ensures Tag("div", "", "hello") == "<div >hello</div>"
  {
    assert "<" + "div" + " " + "" + ">" + "hello" + "</" + "div" + ">" == "<div >hello</div>";
  }

  /** The tag `composeString` builds for a node around its composed
      children: the target's text, the non-event attributes separated by
      single spaces, and the content text. */
  function TagText(node: Value, content: Value): (r: string)
    ensures TagForm(r, ToJsString(Member(node, "target")), Join(Attributes(TagProps(node)), " "), ContentText(content))
  {
    Tag(ToJsString(Member(node, "target")), Join(Attributes(TagProps(node)), " "), ContentText(content))
  }

  /** The composer `composeString` passes to `compose`: it yields a string
      of the tag form for the node's target, attributes and content. */
  function StringComposer(node: Value, content: Value): (r: Value)
    ensures r.Str?
    ensures TagForm(r.s, ToJsString(Member(node, "target")), Join(Attributes(TagProps(node)), " "), ContentText(content))
  {
    Str(TagText(node, content))
  }

  /** The renderer of `renderString` (line 249): an array of results is
      joined with newlines; anything else is converted to a string. */
  function StringSink(composed: Value): (r: string)
    ensures composed.Str? ==> r == composed.s
    ensures composed.Arr? ==> r == JoinValues(composed.items, "\n")
  {
    if composed.Arr? then JoinValues(composed.items, "\n") else ToJsString(composed)
  }

  /** `s.split("\n")`. */
  function SplitLines(s: string): (r: seq<string>)
    ensures |r| >= 1
    decreases |s|
  {
    if '\n' !in s then [s]
    else
      var i := FirstNewline(s);
      [s[..i]] + SplitLines(s[i + 1..])
  }

  function FirstNewline(s: string): (i: nat)
    requires '\n' in s
    ensures i < |s| && s[i] == '\n' && '\n' !in s[..i]
  {
    if s[0] == '\n' then 0
    else
      assert '\n' in s[1..];
      var j := FirstNewline(s[1..]);
      assert s[..j + 1] == [s[0]] + s[1..][..j];
      j + 1
  }

  /** Texts without a newline survive the sink: splitting the rendered
      output on newlines gives back the array's elements' texts. */
  lemma {:induction false} SinkSplitsBack(items: seq<Value>)
    requires |items| > 0
    requires forall i :: 0 <= i < |items| ==> '\n' !in ElementText(items[i])
    ensures SplitLines(StringSink(Arr(items))) == seq(|items|, i requires 0 <= i < |items| => ElementText(items[i]))
  {
    var texts := seq(|items|, i requires 0 <= i < |items| => ElementText(items[i]));
    JoinSplits(texts);
  }

  lemma {:induction false} JoinSplits(parts: seq<string>)
    requires |parts| > 0
    requires forall i :: 0 <= i < |parts| ==> '\n' !in parts[i]
    ensures SplitLines(Join(parts, "\n")) == parts
    decreases |parts|
  {
    if |parts| > 1 {
      LinesTail(parts);
      SplitAtNewline(parts[0], Join(parts[1..], "\n"));
      JoinSplits(parts[1..]);
    }
  }

  lemma LinesTail(parts: seq<string>)
    requires |parts| > 1
    requires forall i :: 0 <= i < |parts| ==> '\n' !in parts[i]
    ensures '\n' !in parts[0]
    ensures forall i :: 0 <= i < |parts[1..]| ==> '\n' !in parts[1..][i]
    ensures Join(parts, "\n") == parts[0] + "\n" + Join(parts[1..], "\n")
  {
    assert forall i :: 0 <= i < |parts[1..]| ==> parts[1..][i] == parts[i + 1];
  }

  /** A line without a newline is split off at the newline after it. */
  lemma SplitAtNewline(p: string, rest: string)
    requires '\n' !in p
    ensures SplitLines(p + "\n" + rest) == [p] + SplitLines(rest)
  {
    var s := p + "\n" + rest;
    assert s[|p|] == '\n';
    var i := FirstNewline(s);
    assert forall j :: 0 <= j < |p| ==> s[j] == p[j];
    assert i == |p|;
    assert s[..i] == p;
    assert s[i + 1..] == rest;
  }
}

=== FILE: values.dfy ===
/** JavaScript-like values as the composition engine sees them (src/jiffy.js).

    A `Value` is what a prop, a child, a state slot or a composed result can
    hold. Functions are identified by an abstract id: the model never looks
    inside a function, it only calls the behaviour the id names. Object field
    lists are in insertion order and are taken to have distinct keys, as a
    JavaScript object's own keys are. */
module Values {

  datatype Option<+T> = None | Some(value: T)

  datatype Value =
    | Undef
    | Null
    | Bool(b: bool)
    | Num(n: int)
    | Str(s: string)
    | Arr(items: seq<Value>)
    | Obj(fields: seq<(string, Value)>)
    | Fun(id: nat)

  /** JavaScript truthiness: `undefined`, `null`, `false`, `0` and `""` are falsy. */
  predicate Truthy(v: Value) {
    match v
    case Undef => false
    case Null => false
    case Bool(b) => b
    case Num(n) => n != 0
    case Str(s) => s != ""
    case _ => true
  }

  /** `typeof v === "object"`: true of `null`, arrays and plain objects. */
  predicate IsObjectType(v: Value) {
    v.Null? || v.Arr? || v.Obj?
  }

  /** `Object.keys` of a field list, in order. */
  function Keys(fs: seq<(string, Value)>): (r: seq<string>)
    ensures |r| == |fs|
  {
    if fs == [] then [] else [fs[0].0] + Keys(fs[1..])
  }

  lemma {:induction false} KeysAt(fs: seq<(string, Value)>)
    ensures forall i :: 0 <= i < |fs| ==> Keys(fs)[i] == fs[i].0
    decreases |fs|
  {
    if fs != [] {
      KeysAt(fs[1..]);
    }
  }

  /** Index of the first field named `k`, if any. */
  function IndexOf(fs: seq<(string, Value)>, k: string): (r: Option<nat>)
    ensures r.Some? ==> r.value < |fs| && fs[r.value].0 == k
    ensures r.Some? ==> forall j :: 0 <= j < r.value ==> fs[j].0 != k
    ensures r.None? <==> k !in Keys(fs)
  {
    if fs == [] then None
    else if fs[0].0 == k then Some(0)
    else match IndexOf(fs[1..], k)
      case None => None
      case Some(j) => Some(j + 1)
  }

  /** Property read `v[k]` on a plain object; every other kind of value
      answers `undefined` for the names the engine reads. */
  function Member(v: Value, k: string): (r: Value)
    ensures !v.Obj? ==> r == Undef
    ensures v.Obj? && k !in Keys(v.fields) ==> r == Undef
    ensures v.Obj? && k in Keys(v.fields) ==>
              exists i :: 0 <= i < |v.fields| && v.fields[i] == (k, r)
  {
    match v
    case Obj(fs) =>
      (match IndexOf(fs, k)
       case Some(i) => fs[i].1
       case None => Undef)
    case _ => Undef
  }

  /** `{ ...fs, [k]: v }`: an existing key keeps its place and takes the
      new value; a new key is appended. */
  function Put(fs: seq<(string, Value)>, k: string, v: Value): (r: seq<(string, Value)>)
    ensures Member(Obj(r), k) == v
    ensures forall k' :: k' != k ==> Member(Obj(r), k') == Member(Obj(fs), k')
    ensures k in Keys(fs) ==> Keys(r) == Keys(fs)
    ensures k !in Keys(fs) ==> Keys(r) == Keys(fs) + [k]
  {
    match IndexOf(fs, k)
    case Some(i) =>
      PutReplaces(fs, i, k, v);
      fs[i := (k, v)]
    case None =>
      PutAppends(fs, k, v);
      fs + [(k, v)]
  }

  lemma PutReplaces(fs: seq<(string, Value)>, i: nat, k: string, v: Value)
    requires IndexOf(fs, k) == Some(i)
    ensures var r := fs[i := (k, v)];
            && Member(Obj(r), k) == v
            && (forall k' :: k' != k ==> Member(Obj(r), k') == Member(Obj(fs), k'))
            && Keys(r) == Keys(fs)
  {
    var r := fs[i := (k, v)];
    KeysAt(r);
    KeysAt(fs);
    assert Keys(r) == Keys(fs);
    assert IndexOf(r, k) == Some(i) by { IndexOfStable(fs, r, k); }
    forall k' | k' != k ensures Member(Obj(r), k') == Member(Obj(fs), k') {
      IndexOfStable(fs, r, k');
    }
  }

  lemma PutAppends(fs: seq<(string, Value)>, k: string, v: Value)
    requires IndexOf(fs, k) == None
    ensures var r := fs + [(k, v)];
            && Member(Obj(r), k) == v
            && (forall k' :: k' != k ==> Member(Obj(r), k') == Member(Obj(fs), k'))
            && Keys(r) == Keys(fs) + [k]
  {
    var r := fs + [(k, v)];
    KeysAppend(fs, (k, v));
    assert IndexOf(r, k) == Some(|fs|) by { IndexOfAppend(fs, (k, v), k); }
    forall k' | k' != k ensures Member(Obj(r), k') == Member(Obj(fs), k') {
      IndexOfAppend(fs, (k, v), k');
    }
  }

  lemma KeysAppend(fs: seq<(string, Value)>, e: (string, Value))
    ensures Keys(fs + [e]) == Keys(fs) + [e.0]
  {
    KeysAt(fs + [e]);
    KeysAt(fs);
  }

  /** Rewriting values without touching keys leaves every lookup index alone. */
  lemma {:induction false} IndexOfStable(fs: seq<(string, Value)>, gs: seq<(string, Value)>, k: string)
    requires Keys(fs) == Keys(gs)
    ensures IndexOf(fs, k) == IndexOf(gs, k)
    decreases |fs|
  {
    assert |fs| == |Keys(fs)| == |gs|;
    if fs != [] {
      assert fs[0].0 == Keys(fs)[0] == gs[0].0;
      assert Keys(fs[1..]) == Keys(fs)[1..] == Keys(gs)[1..] == Keys(gs[1..]);
      IndexOfStable(fs[1..], gs[1..], k);
    }
  }

  lemma {:induction false} IndexOfAppend(fs: seq<(string, Value)>, e: (string, Value), k: string)
    ensures IndexOf(fs + [e], k) ==
              (match IndexOf(fs, k)
               case Some(i) => Some(i)
               case None => if e.0 == k then Some(|fs|) else None)
    decreases |fs|
  {
    if fs != [] {
      assert (fs + [e])[1..] == fs[1..] + [e];
      IndexOfAppend(fs[1..], e, k);
    }
  }

  // ---------------------------------------------------------------------
  // Number and string conversion

  function DigitChar(d: nat): char
    requires d < 10
  {
    "0123456789"[d]
  }

  /** Decimal text of a natural number, as `${n}` writes it. */
  function NatToString(n: nat): (r: string)
    ensures |r| >= 1
    ensures n < 10 <==> |r| == 1
    decreases n
  {
    if n < 10 then [DigitChar(n)] else NatToString(n / 10) + [DigitChar(n % 10)]
  }

  /** Distinct numbers have distinct decimal texts, so the index keys an
      array turns into are distinct. */
  lemma {:induction false} NatToStringInjective(a: nat, b: nat)
    requires NatToString(a) == NatToString(b)
    ensures a == b
    decreases a
  {
    if a >= 10 {
      var sa, sb := NatToString(a), NatToString(b);
      assert sa[|sa| - 1] == DigitChar(a % 10);
      assert sb[|sb| - 1] == DigitChar(b % 10);
      assert a % 10 == b % 10;
      assert sa[..|sa| - 1] == NatToString(a / 10);
      assert sb[..|sb| - 1] == NatToString(b / 10);
      NatToStringInjective(a / 10, b / 10);
    }
  }

  function IntToString(i: int): string {
    if i < 0 then "-" + NatToString(-i) else NatToString(i)
  }

  function Join(parts: seq<string>, sep: string): (r: string)
    ensures parts == [] ==> r == ""
    ensures |parts| == 1 ==> r == parts[0]
  {
    if parts == [] then ""
    else if |parts| == 1 then parts[0]
    else parts[0] + sep + Join(parts[1..], sep)
  }

  /** The text a function converts to is its source, which the model does
      not have; it stands in a fixed marker naming the function's id. */
  function FunctionText(id: nat): string {
    "[function " + NatToString(id) + "]"
  }

  /** `String(v)`, the conversion a template literal applies. An array is
      joined with "," and its `null`/`undefined` elements become "". */
  function ToJsString(v: Value): string
    decreases v, 1
  {
    match v
    case Undef => "undefined"
    case Null => "null"
    case Bool(b) => if b then "true" else "false"
    case Num(n) => IntToString(n)
    case Str(s) => s
    case Obj(_) => "[object Object]"
    case Fun(id) => FunctionText(id)
    case Arr(items) => JoinValues(items, ",")
  }

  /** `items.join(sep)`: `null` and `undefined` elements become "". */
  function JoinValues(items: seq<Value>, sep: string): string
    decreases Arr(items), 0
  {
    Join(seq(|items|, i requires 0 <= i < |items| => ElementText(items[i])), sep)
  }

  function ElementText(v: Value): string
    decreases v, 2
  {
    if v.Null? || v.Undef? then "" else ToJsString(v)
  }

  // ---------------------------------------------------------------------
  // Own enumerable entries and cloneDeep

  /** `Object.entries(v)`: a plain object's fields, an array's or a
      string's elements under their decimal indices, nothing otherwise. */
  function Entries(v: Value): seq<(string, Value)> {
    match v
    case Obj(fs) => fs
    case Arr(items) => seq(|items|, i requires 0 <= i < |items| => (NatToString(i), items[i]))
    case Str(s) => seq(|s|, i requires 0 <= i < |s| => (NatToString(i), Str([s[i]])))
    case _ => []
  }

  /** No array anywhere inside `v`. */
  predicate ArrayFree(v: Value) {
    match v
    case Arr(_) => false
    case Obj(fs) => forall i :: 0 <= i < |fs| ==> ArrayFree(fs[i].1)
    case _ => true
  }

  /** cloneDeep (src/jiffy.js:34-52). `null`, booleans, strings, numbers and
      `undefined` come back as they are; a function comes back as a wrapper
      with the same behaviour; anything of type "object" is rebuilt by
      reducing its entries into a fresh `{}` with each value cloned. Since
      `typeof []` is "object", an array comes back as a plain object keyed
      "0", "1", .... The reduce's spread appends each key because entry keys
      are distinct. */
  function CloneDeep(v: Value): (r: Value)
    ensures Truthy(r) == Truthy(v)
    ensures ArrayFree(r)
    ensures r.Obj? <==> v.Obj? || v.Arr?
    ensures r.Obj? ==> Keys(r.fields) == Keys(Entries(v))
    ensures !IsObjectType(v) ==> r == v
  {
    match v
    case Obj(fs) =>
      var gs := seq(|fs|, i requires 0 <= i < |fs| => (fs[i].0, CloneDeep(fs[i].1)));
      KeysAt(fs);
      KeysAt(gs);
      Obj(gs)
    case Arr(items) =>
      var fs := seq(|items|, i requires 0 <= i < |items| => (NatToString(i), CloneDeep(items[i])));
      KeysAt(fs);
      KeysAt(Entries(v));
      Obj(fs)
    case _ => v
  }

  /** Reading a field of a cloned object reads the clone of the field. */
  lemma CloneDeepMember(fs: seq<(string, Value)>, k: string)
    ensures Member(CloneDeep(Obj(fs)), k) == CloneDeep(Member(Obj(fs), k))
  {
    var cs := CloneDeep(Obj(fs)).fields;
    IndexOfStable(cs, fs, k);
    match IndexOf(fs, k)
    case Some(i) =>
    case None =>
  }

  /** On array-free values cloneDeep is a faithful copy. */
  lemma {:induction false} CloneDeepCopies(v: Value)
    requires ArrayFree(v)
    ensures CloneDeep(v) == v
  {
    match v
    case Obj(fs) =>
      forall i | 0 <= i < |fs| ensures CloneDeep(fs[i].1) == fs[i].1 {
        CloneDeepCopies(fs[i].1);
      }
      assert CloneDeep(v).fields == fs;
    case _ =>
  }

  /** Cloning a clone changes nothing. */
  lemma CloneDeepIdempotent(v: Value)
    ensures CloneDeep(CloneDeep(v)) == CloneDeep(v)
  {
    CloneDeepCopies(CloneDeep(v));
  }

  /** An array's clone is an object whose key `NatToString(i)` holds the
      clone of element `i`. */
  lemma CloneDeepArrayIndex(items: seq<Value>, i: nat)
    requires i < |items|
    ensures Member(CloneDeep(Arr(items)), NatToString(i)) == CloneDeep(items[i])
  {
    var fs := CloneDeep(Arr(items)).fields;
    var k := NatToString(i);
    KeysAt(fs);
    assert fs[i].0 == k;
    assert k in Keys(fs);
    match IndexOf(fs, k)
    case Some(j) =>
      if j != i {
        assert fs[j].0 == NatToString(j);
        NatToStringInjective(i, j);
      }
  }
}
